=== FILE: README.md ===
# Sales performance chart core, in Dafny

The repository is a React dashboard that draws monthly sales-performance
charts. Each chart has bars for the bill of production (BOP) and for
shipment (SH), plus a line for sales performance (SP), as the comment at
`src/pages/demo3/index.js:27` names them, with a small black label above
every SP point. Under the presentation layer
sit three pieces of pure logic, and this project models them:

- **The record normaliser of the monthly page** (`src/pages/demo7`). It turns
  raw records `{month_date, shpm_sp, bop_sum_sp, sp}` into chart points
  `{month, BOP, SH, SP}`. `parseSp` reads a `"101.60%"` string or passes a
  number through. Each field maps exactly `0` to `null`, independently of the
  others. The month becomes a `"MMM YY"` label via dayjs.
- **The two series generators** (`generateMockData` in `src/pages/demo3` and
  `src/pages/demo4`). Each builds 32 monthly records from July 2023 to
  February 2026:
  - the fixed-range page draws values within fixed ranges;
  - the baseline page varies the FAMILYCARE totals of a snapshot by ±10% (or
    ±5% for SP) and clamps the result.

  `Math.random()` becomes a parameter: three draws per month in `[0, 1)`, in
  the order the code draws them.
- **The label geometry** (`CustomLabel` on all three pages). It produces the
  text `${value}%`, a rectangle whose width is linear in the text length, and
  the text anchor. The rectangle is centred on the point horizontally and
  sits 10 pixels above it. On the monthly page the label is skipped when the
  value is `null`.

JavaScript values are modelled as follows:

- **Numbers** are exact decimals (`JsNumbers.Decimal`, mantissa and
  scale), plus the two infinities and NaN.
- **`parseFloat`** follows its ECMAScript definition. It skips leading white
  space, reads an optional sign, then `Infinity` or the longest decimal
  literal prefix. The result is NaN when no such prefix exists.
- **Number-to-text** (`${value}`) follows the ECMAScript Number::toString
  algorithm: integer, fixed-point, `0.000…` and exponent forms.
  `NumberRoundTrip.ParsePrintRoundTrip` proves that `parseFloat` reads every
  printed number back exactly.
- **`new Date(y, m, d)`** is calendar arithmetic on a month index
  (`year * 12 + month`). Day 0 is the last day of the month before, and a
  day past the end of the month rolls over into the following months.
  Years 0 to 99 mean 1900 to 1999.

Files:

| file | module(s) |
|---|---|
| `wrappers.dfy` | `Wrappers`: `Option`, `Result`, the `TypeError` failure |
| `jsnumbers.dfy` | `JsNumbers`: decimals, JS numbers and values, digit strings, Number::toString |
| `numberparsing.dfy` | `NumberParsing`: `parseFloat` and `replace("%", "")`; `NumberRoundTrip`: print/parse round trip |
| `calendar.dfy` | `Calendar`: month arithmetic, the Date constructor, `"MMM YY"` labels, dayjs on `YYYY-MM-DD` |
| `normalizer.dfy` | `SalesNormalizer`: `parseSp` and the record map of the monthly page, with its data |
| `mockseries.dfy` | `MockSeries`: both `generateMockData` functions and the baseline snapshot |
| `labellayout.dfy` | `LabelLayout`: the `CustomLabel` geometry of the three pages |

### Behaviour of the code that is easy to miss

- **A `null` or `undefined` `sp` throws.** On the monthly page `parseSp`
  calls `spString.replace`, which throws a `TypeError` on either value. The
  throw aborts the whole `map`, so no chart data is produced.
  `SalesNormalizer.NormalizeAll` returns that error.
- **An unparsable `sp` string stays NaN.** Examples are `""` and `"abc"`.
  NaN is not `=== 0`, so SP is NaN and not `null`. See
  `SalesNormalizer.UnparsableSpStaysNaN`.
- **An `undefined` volume passes through as `undefined`.** The test is a
  strict `=== 0`, so only the number 0 becomes `null`.
- **Volumes are passed through unscaled.** The comment at
  `src/pages/demo7/index.js:125` says `shpm_sp` and `bop_sum_sp` are scaled
  to thousands, but lines 127-128 copy them unchanged. The model follows the
  code.
- **On the monthly page, `undefined` is labelled.** Only `null` suppresses a
  label, so an `undefined` value is drawn as `"undefined%"`.

## Model

| member | source | states |
|---|---|---|
| JsNumbers.NumberToString | src/pages/demo7/index.js:204 | the text of a number in a template literal is never empty and starts with "-" exactly for the negative numbers and negative infinity |
| JsNumbers.ToText | src/pages/demo4/index.js:233 | the text `${value}` of any value is empty only for the empty string, and for a number starts with "-" exactly when the number is negative |
| NumberParsing.ParseFloat | src/pages/demo7/index.js:118 | `parseFloat` is NaN exactly when the text, after white space and one sign, does not start with a digit, a point and a digit, or "Infinity"; a finite result always comes from text starting with a digit or a point |
| NumberParsing.RemoveFirstPercent | src/pages/demo7/index.js:118 | `replace("%", "")` leaves text without '%' unchanged and otherwise removes exactly the first '%' and nothing else |
| NumberRoundTrip.ParsePrintRoundTrip | src/pages/demo7/index.js:204 | the text a number is printed as in a template literal reads back through `parseFloat` as the same number (NaN, both infinities, zero, every finite decimal) |
| NumberRoundTrip.ParsePointedPercent | src/pages/demo4/index.js:118 | stripping '%' from "digits.digits%" and parsing gives the decimal with as many places as the fraction has digits |
| SalesNormalizer.ParseSp | src/pages/demo7/index.js:113-119 | a number passes through unchanged; a string is parsed after its '%' is removed; among undefined, null, numbers and strings, exactly `null` and `undefined` throw a TypeError |
| SalesNormalizer.NormalizeRecord | src/pages/demo7/index.js:122-131 | one record's map callback succeeds exactly when its `sp` is a number or a string, and otherwise fails with the `replace` TypeError |
| SalesNormalizer.NullIfZero | src/pages/demo7/index.js:127-128 | `x === 0 ? null : x` returns every value except a zero number unchanged, turns a zero number into `null`, and never returns a zero number |
| SalesNormalizer.MapOrThrow | src/pages/demo7/index.js:122 | `map` with a throwing callback returns all results in order when no call throws, and otherwise the exception of the first call that throws |
| SalesNormalizer.NormalizeAll | src/pages/demo7/index.js:122-131 | the map succeeds exactly when every record's `sp` is a number or a string; then it has one point per record, in order, each the callback's result for that record; otherwise it fails with the error of the first record whose callback throws |
| SalesNormalizer.NormalizedFields | src/pages/demo7/index.js:124-130 | in each point BOP and SH are `null` when the raw volume is `=== 0` and otherwise the raw volume itself, unscaled (a raw `null` stays `null`); SP is `null` exactly when the parsed percentage is 0 and otherwise that number; the month is the dayjs label of the record's date |
| SalesNormalizer.FieldsDecidedIndependently | src/pages/demo7/index.js:124-130 | each output field depends on its own raw field only: records agreeing on one field agree on the corresponding output |
| SalesNormalizer.ParseSpReadsPercentText | src/pages/demo7/index.js:113-119 | `parseSp` of a number's printed text followed by '%' gives that number back |
| SalesNormalizer.UnparsableSpStaysNaN | src/pages/demo7/index.js:130 | a string `sp` parses to NaN exactly when it has no numeric prefix, and such a record keeps NaN as SP rather than `null` |
| SalesNormalizer.SpEdgeCases | src/pages/demo7/index.js:113-119 | "0%" parses to zero, "" and "abc" to NaN, and a `null` `sp` throws |
| SalesNormalizer.SpExample | src/pages/demo7/index.js:32 | "101.60%" parses to 101.60 |
| SalesNormalizer.ParseSpPointedPercent | src/pages/demo7/index.js:113-119 | `parseSp` of any "digits.digits%" string is the decimal of those digits with as many places as the fraction has digits |
| SalesNormalizer.FirstRecordExample | src/pages/demo7/index.js:28-33 | the first record becomes `{month: "Jun 24", BOP: 2537, SH: 2577.015, SP: 101.6}` |
| SalesNormalizer.SentinelRecordsExample | src/pages/demo7/index.js:94-105 | the May 2025 record keeps BOP and nulls SH and SP; the June 2025 record keeps SH and nulls BOP and SP |
| SalesNormalizer.JuneLabelExample | src/pages/demo7/index.js:124 | "2024-06-01" is labelled "Jun 24" |
| SalesNormalizer.JanuaryLabelExample | src/pages/demo7/index.js:71 | "2025-01-01" is labelled "Jan 25" |
| Calendar.Rollover | src/pages/demo4/index.js:140 | the Date constructor's day rolls over: day 0 is the last day of the previous month, an in-range day stays in its month, and any day `d >= 1` lands on the date whose month lies at or after the starting month and whose day, added to the lengths of the months skipped, is `d`; the result is always a valid date |
| Calendar.MakeDate | src/pages/demo4/index.js:140 | `new Date(y, m, d)` is a valid date counted from month index `a = year·12 + m` of the constructor's year (years 0 to 99 read as 1900 to 1999), whatever `m` is: a day inside month `a` gives exactly that date, day 0 gives the last day of the month before, and a larger day rolls forward, landing on the date whose days since the start of month `a` add up to `d` |
| Calendar.YearSuffix | src/pages/demo4/index.js:142 | `String(y).slice(-2)` is the last two characters of the year's text (all of it when shorter), which from year 10 on are the tens and units digits |
| Calendar.MonthLabel | src/pages/demo4/index.js:141-143 | from year 10 on, a month's label is its English short name, a space, and the tens and units digits of its year |
| Calendar.DayjsDate | src/pages/demo7/index.js:124 | the model builds a date exactly for text of the form DDDD-DD-DD, and that date is valid |
| Calendar.DayjsMonthLabel | src/pages/demo7/index.js:124 | a label is produced exactly for text of the form DDDD-DD-DD |
| Calendar.LiteralDateLabel | src/pages/demo7/index.js:124 | a well-formed date from year 100 on is labelled with its own month name and the last two digits of its own year |
| Calendar.LabelRoundTrip | src/pages/demo4/index.js:140-143 | from year 10 on, an "MMM YY" label can be read back to its month and the year modulo 100 |
| Calendar.LabelsDistinguishMonths | src/pages/demo4/index.js:140-143 | from year 10 on, two labels are equal exactly when the months agree and the years agree modulo 100 |
| MockSeries.SeriesDate | src/pages/demo3/index.js:40 | `new Date(2023, 6 + i, 1)` is the first of the month `i` months after July 2023, a valid date |
| MockSeries.SeriesLabel | src/pages/demo4/index.js:140-143 | from record `-6` on, the label of record `i` reads back as month `(6 + i) mod 12` and the last two digits of the year `2023 + (6 + i) div 12` |
| MockSeries.RangePoint | src/pages/demo3/index.js:45-58 | the pushed object carries the given label and a two-place finite SP; with draws in `[0, 1)` its BOP lies in `[15000, 28000]`, its SH between `floor(0.95·BOP)` and `floor(1.05·BOP)`, and its SP in `[88, 102]` |
| MockSeries.VariedPoint | src/pages/demo4/index.js:147-161 | the pushed object carries record `i`'s label and respects the clamped bounds, with NaN in SP exactly when the baseline's is NaN; each volume is within half a unit of the baseline volume varied by `±10%` when that lies inside `[10000, 30000]` |
| MockSeries.SeriesMonthArithmetic | src/pages/demo4/index.js:129-140 | record `i` is dated the first of month `(6 + i) mod 12` of year `2023 + (6 + i) div 12`, with no rollover |
| MockSeries.SeriesLabelsConsecutive | src/pages/demo3/index.js:35-43 | consecutive records are consecutive calendar months |
| MockSeries.SeriesEnds | src/pages/demo4/index.js:131 | the 32 labels run from "Jul 23" to "Feb 26" |
| MockSeries.SeriesLabelsDistinct | src/pages/demo3/index.js:39-43 | no two of the 32 records share a label |
| MockSeries.Round | src/pages/demo4/index.js:152-153 | `Math.round` lands within half a unit of its argument, rounding halves up |
| MockSeries.Clamp | src/pages/demo4/index.js:152-154 | `Math.min(Math.max(x, lo), hi)` lies in `[lo, hi]`: it is `lo` below the range, `hi` above it, and `x` inside it |
| MockSeries.Round2 | src/pages/demo3/index.js:51 | `parseFloat(x.toFixed(2))` has two decimal places and, for `x >= 0`, lies within 0.005 of `x` |
| MockSeries.Round2Within | src/pages/demo4/index.js:154 | rounding to hundredths keeps a value inside bounds that are whole hundredths |
| MockSeries.RangeBop | src/pages/demo3/index.js:46 | with a draw in `[0, 1)`, BOP is an integer in `[15000, 28000]` |
| MockSeries.RangeSh | src/pages/demo3/index.js:48 | with a draw in `[0, 1)` and a non-negative BOP, SH lies between `floor(0.95·BOP)` and `floor(1.05·BOP)` |
| MockSeries.RangeSp | src/pages/demo3/index.js:51 | SP has two decimal places; with a draw in `[0, 1)` it lies in `[88, 102]` and within half a hundredth of `88 + 14·draw` |
| MockSeries.PushedAt | src/pages/demo3/index.js:39-59 | after `n` rounds of a loop that pushes one object per round, record `k` is the object pushed in round `k`, built from the `k`-th draws alone |
| MockSeries.FixedRangeSeriesAt | src/pages/demo3/index.js:39-59 | record `k` of the series is labelled with month `k` after July 2023 and built from the `k`-th draws alone |
| MockSeries.FixedRangeSeriesRecord | src/pages/demo3/index.js:39-59 | every record of a full series carries its month label and respects the fixed ranges |
| MockSeries.GenerateFixedRangeSeries | src/pages/demo3/index.js:33-61 | the loop builds exactly the month-by-month series: 32 records from "Jul 23" to "Feb 26" |
| MockSeries.ParseSpString | src/pages/demo4/index.js:118 | the string-only `parseSp` succeeds exactly on strings; a number has no `replace` method and throws |
| MockSeries.BaselineOf | src/pages/demo4/index.js:135-137 | the baseline exists exactly when the snapshot has FAMILYCARE with a string `sp`; its volumes times 1000 are FAMILYCARE's sums, and its SP is `parseSp` of FAMILYCARE's `sp` |
| MockSeries.VariedVolume | src/pages/demo4/index.js:147-153 | a varied volume is an integer in `[10000, 30000]` for any baseline; it is within half a unit of the varied value when that lies inside the bounds, and the bound itself when the value falls outside |
| MockSeries.VariedSp | src/pages/demo4/index.js:149-154 | the varied SP is NaN exactly when the baseline SP is; otherwise it is a two-place decimal in `[88, 102]`: within half a hundredth of the varied value inside the bounds, the bound itself outside them, and the bound on its side for an infinity |
| MockSeries.BaselineSeriesAt | src/pages/demo4/index.js:139-162 | record `k` of the series is labelled with month `k` after July 2023 and built from the baseline and the `k`-th draws alone |
| MockSeries.BaselineSeriesRecord | src/pages/demo4/index.js:139-162 | every record of a full series carries its month label and respects the clamped bounds |
| MockSeries.GenerateBaselineSeries | src/pages/demo4/index.js:127-164 | the generator fails exactly when reading the baseline fails, with the same error, before building any record; otherwise it returns the 32-record series around that baseline |
| MockSeries.VarySeries | src/pages/demo4/index.js:139-162 | the loop builds exactly the month-by-month series, from "Jul 23" to "Feb 26" |
| MockSeries.FamilyCareBaselineRead | src/pages/demo4/index.js:27-33 | the shipped snapshot's baseline is 27967.016 (SH), 27660.429 (BOP) and 101.10 (SP) |
| MockSeries.FamilyCareSp | src/pages/demo4/index.js:31 | "101.10%" parses to 101.10 |
| MockSeries.ParseSpStringPointedPercent | src/pages/demo4/index.js:118 | the string-only `parseSp` of any "digits.digits%" string is the decimal of those digits with as many places as the fraction has digits |
| MockSeries.FamilyCareSeriesBounds | src/pages/demo4/index.js:147-154 | around the shipped baseline the lower clamps never act: BOP stays at or above 24894, SH at or above 25170 and SP at or above 96.05 |
| MockSeries.FamilyCareBopCanClamp | src/pages/demo4/index.js:152 | around the shipped baseline the upper BOP clamp does act, so 30000 is reached |
| LabelLayout.Layout | src/pages/demo7/index.js:204-223 | the text is the value's text followed by "%"; the text anchor is `(x, y - 10)`; the rectangle's centre is the text anchor, so it is centred on `x`; its width is 6 pixels per character of that text plus padding and its height is fixed |
| LabelLayout.PercentText | src/pages/demo7/index.js:204 | `${value}%` is the value's text with exactly one "%" appended at its end |
| LabelLayout.GuardedLabel | src/pages/demo7/index.js:200-203 | the monthly page draws no label exactly when the value is `null`, and otherwise draws its 6·len+12 by 18 label |
| LabelLayout.LabelAbovePoint | src/pages/demo7/index.js:213-216 | a rectangle shorter than twice the lift ends above the point, so it never covers it |
| LabelLayout.PageLabelsAbovePoint | src/pages/demo3/index.js:134-142 | the rectangle ends one pixel above the point on the monthly and baseline pages and two pixels above it on the fixed-range page |
| LabelLayout.CompactInsideMonthly | src/pages/demo3/index.js:134-144 | for the same value and point, the fixed-range page's rectangle lies one pixel inside the monthly page's on every side |
| LabelLayout.LabelReadsBack | src/pages/demo4/index.js:233 | a number's label text, read back through `parseSp`, gives that number |
| LabelLayout.NormalizedLabel | src/pages/demo7/index.js:130 | a normalised point is unlabelled exactly when its `sp` parsed to zero; otherwise its label reads back as the parsed percentage |
| LabelLayout.SentinelRecordsHaveNoLabel | src/pages/demo7/index.js:94-105 | the May and June 2025 records draw no SP label |
| LabelLayout.LabelWidthExample | src/pages/demo7/index.js:206 | 98.5 is drawn as "98.5%" in a 42-pixel rectangle on the monthly page and a 40-pixel one on the fixed-range page |
| LabelLayout.UndefinedIsDrawn | src/pages/demo7/index.js:200-204 | an `undefined` value is not filtered and is drawn as "undefined%" |

## Left out

- Presentation is not modelled. This covers the JSX, MUI layout, Recharts
  configuration, the forecast selector state and the tooltip components.
  None of it computes anything the chart data depends on.
- `src/pages/demo1/index.js`, `src/pages/demo2/index.js` and `src/App.js` are
  not part of this model. They hold static data, chart configuration and
  routing.
- Booleans, objects and arrays are not modelled as `sp` values: a value is
  undefined, null, a number or a string. In JavaScript these other values
  also reach `spString.replace(...)` in `parseSp` and throw a TypeError,
  because none of them has a `replace` method.
- `Math.random()` is replaced by explicit draws in `[0, 1)`. Randomness
  itself is not modelled.
- IEEE-754 double precision is not modelled: numbers are exact decimals. The
  affected steps are the products and quotients in the generators, `/ 1000`,
  `toFixed(2)`, `Math.round`, and `parseFloat` of long digit strings.
  `parseFloat` of an exponent beyond the double range is not modelled
  either: JavaScript reads "1e400" as Infinity and "1e-400" as 0, so an
  `sp` of "1e-400%" would become `null`, while the model reads both as
  finite non-zero decimals.
  Negative zero is not modelled either. It does not arise from the data:
  `-0 === 0` and `String(-0)` is `"0"`, so the model's single zero behaves
  the same way.
- MockSeries.Round2: models `parseFloat(x.toFixed(2))` as exact
  round-half-up to hundredths of the real value. It does not model the
  binary rounding that `toFixed` applies to the double nearest `x`.
- MockSeries.RangeSh: takes `1.05 - 0.95` as exactly 0.1. In doubles it is
  0.10000000000000009.
- Calendar.DayjsMonthLabel: models only dayjs's `YYYY-MM-DD` pattern, which
  the data uses. For any other text it gives no label. dayjs's fallback to
  `new Date(string)` is not modelled, nor is its "Invalid Date" text.
- Calendar.DayjsDate: builds a date only for the `YYYY-MM-DD` pattern.
  dayjs also parses other shapes, such as `"2024-6-1"`, `"2024/06/01"`,
  `"20240601"` and `"2024-06"`; the model gives no date for them. The time
  of day and the time zone are not modelled either. A date built from its
  parts is local midnight and keeps its calendar date.
- MockSeries.FamilyCareSeriesBounds: the SP floor 96.05 holds in exact
  decimals. In doubles the draw 0 gives `101.1 * 0.95 = 96.04499999999999`,
  which `toFixed(2)` prints as `"96.04"`, so the running code's floor is
  96.04.
- `toLocaleString("en-US", {month: "short"})` and dayjs's `"MMM"` are both
  modelled as the same fixed table of English month abbreviations.
- MockSeries.BaselineOf: volumes are modelled as real numbers. A non-number
  `shpm_sum` or `bop_sum` would go through JavaScript coercion, which is not
  modelled.
- JavaScript string length counts UTF-16 code units. The model counts
  characters, which is the same thing for the ASCII texts a label can hold.

=== FILE: calendar.dfy ===
/** Month arithmetic and the "MMM YY" month label. JavaScript's
    `new Date(y, m, d)` normalises an out-of-range month or day by rolling
    into the neighbouring month or year; dayjs builds its dates from a
    "YYYY-MM-DD" string that way. Both are modelled here with explicit
    arithmetic on a proleptic Gregorian calendar. */
module Calendar {
  import opened Wrappers
  import opened JsNumbers

  const MonthNames: seq<string> :=
    ["Jan", "Feb", "Mar", "Apr", "May", "Jun",
     "Jul", "Aug", "Sep", "Oct", "Nov", "Dec"]

  /** A calendar month: a year and a 0-based month index (0 is January). */
  datatype YearMonth = YearMonth(year: int, month: int) {
    predicate Valid() {
      0 <= month < 12
    }
  }

  /** The month `a` months after January of year 0. */
  function FromIndex(a: int): (ym: YearMonth)
    ensures ym.Valid()
    ensures ym.year * 12 + ym.month == a
  {
    YearMonth(a / 12, a % 12)
  }

  function Index(ym: YearMonth): int {
    ym.year * 12 + ym.month
  }

  function Next(ym: YearMonth): YearMonth
    requires ym.Valid()
  {
    if ym.month == 11 then YearMonth(ym.year + 1, 0) else YearMonth(ym.year, ym.month + 1)
  }

  function Prev(ym: YearMonth): YearMonth
    requires ym.Valid()
  {
    if ym.month == 0 then YearMonth(ym.year - 1, 11) else YearMonth(ym.year, ym.month - 1)
  }

  /** Counting months and stepping to the next month agree. */
  lemma NextIsSuccessor(ym: YearMonth)
    requires ym.Valid()
    ensures Next(ym).Valid() && Prev(ym).Valid()
    ensures Index(Next(ym)) == Index(ym) + 1
    ensures Index(Prev(ym)) == Index(ym) - 1
    ensures FromIndex(Index(ym)) == ym
    ensures FromIndex(Index(ym) + 1) == Next(ym)
  {
    FromIndexUnique(ym);
    FromIndexUnique(Next(ym));
  }

  lemma FromIndexUnique(ym: YearMonth)
    requires ym.Valid()
    ensures FromIndex(Index(ym)) == ym
  {
    var a := Index(ym);
    assert a / 12 == ym.year && a % 12 == ym.month by {
      DivModUnique(a, ym.year, ym.month);
    }
  }

  lemma DivModUnique(a: int, q: int, r: int)
    requires 0 <= r < 12 && a == q * 12 + r
    ensures a / 12 == q && a % 12 == r
  {
  }

  predicate IsLeapYear(y: int) {
    y % 4 == 0 && (y % 100 != 0 || y % 400 == 0)
  }

  function DaysInMonth(ym: YearMonth): (n: nat)
    requires ym.Valid()
    ensures 28 <= n <= 31
  {
    if ym.month == 1 then (if IsLeapYear(ym.year) then 29 else 28)
    else if ym.month in {3, 5, 8, 10} then 30
    else 31
  }

  /** A calendar day: a month and a day of that month. */
  datatype Date = Date(ym: YearMonth, day: int) {
    predicate Valid() {
      ym.Valid() && 1 <= day <= DaysInMonth(ym)
    }
  }

  /** The number of days in the `k` months that start with month `ym`. */
  function DaysFrom(ym: YearMonth, k: nat): nat
    requires ym.Valid()
    decreases k
  {
    if k == 0 then 0
    else
      NextIsSuccessor(ym);
      DaysInMonth(ym) + DaysFrom(Next(ym), k - 1)
  }

  /** Day `d` counted from the start of month `ym`, where 0 is the last day
      of the previous month and a day past the month's end continues into
      the following months: a day `d >= 1` lands on the date that is `d - 1`
      days after the first of `ym`. */
  function Rollover(ym: YearMonth, d: nat): (r: Date)
    requires ym.Valid()
    ensures r.Valid()
    ensures d == 0 ==> r == Date(Prev(ym), DaysInMonth(Prev(ym)))
    ensures 1 <= d <= DaysInMonth(ym) ==> r == Date(ym, d)
    ensures d >= 1 ==> Index(r.ym) >= Index(ym) && DaysFrom(ym, Index(r.ym) - Index(ym)) + r.day == d
    decreases d
  {
    if d == 0 then
      NextIsSuccessor(ym);
      Date(Prev(ym), DaysInMonth(Prev(ym)))
    else if d > DaysInMonth(ym) then
      NextIsSuccessor(ym);
      var r := Rollover(Next(ym), d - DaysInMonth(ym));
      assert DaysFrom(ym, Index(r.ym) - Index(ym))
          == DaysInMonth(ym) + DaysFrom(Next(ym), Index(r.ym) - Index(Next(ym)));
      r
    else Date(ym, d)
  }

  /** The Date constructor's year argument: 0 to 99 mean 1900 to 1999. */
  function ConstructorYear(y: int): int {
    if 0 <= y <= 99 then 1900 + y else y
  }

  /** `new Date(y, m, d)` for a day `d >= 0`, counted from month index
      `a = year * 12 + m` of the constructor's year: a day inside month `a`
      gives that very date, day 0 the last day of the month before, and a
      larger day rolls forward month by month. */
  function MakeDate(y: int, m: int, d: nat): (r: Date)
    ensures r.Valid()
    ensures 0 <= m < 12 && 1 <= d <= DaysInMonth(YearMonth(ConstructorYear(y), m))
            ==> r == Date(YearMonth(ConstructorYear(y), m), d)
    ensures var a := ConstructorYear(y) * 12 + m;
            1 <= d <= DaysInMonth(FromIndex(a)) ==> r == Date(FromIndex(a), d)
    ensures var a := ConstructorYear(y) * 12 + m;
            d == 0 ==> r == Date(Prev(FromIndex(a)), DaysInMonth(Prev(FromIndex(a))))
    ensures var a := ConstructorYear(y) * 12 + m;
            d >= 1 ==> Index(r.ym) >= a && DaysFrom(FromIndex(a), Index(r.ym) - a) + r.day == d
  {
    var ym := FromIndex(ConstructorYear(y) * 12 + m);
    if 0 <= m < 12 then
      FromIndexUnique(YearMonth(ConstructorYear(y), m));
      assert ym == YearMonth(ConstructorYear(y), m);
      Rollover(ym, d)
    else Rollover(ym, d)
  }

  // ---------------------------------------------------------------------
  // Labels

  /** `String(y)`, the decimal text of an integer. */
  function IntToString(y: int): string {
    if y < 0 then "-" + DigitsOf(-y) else DigitsOf(y)
  }

  /** `String(y).slice(-2)`: the last two characters of the year's text,
      which from year 10 on are the two digits of `year % 100`. */
  function YearSuffix(y: int): (r: string)
    ensures var t := IntToString(y); |r| == (if |t| < 2 then |t| else 2) && r == t[|t| - |r|..]
    ensures y >= 10 ==> r == [DigitChar(y / 10 % 10), DigitChar(y % 10)]
  {
    var t := IntToString(y);
    if y >= 10 then
      LastTwoDigits(y);
      t[|t| - 2..]
    else if |t| <= 2 then t else t[|t| - 2..]
  }

  lemma LastTwoDigits(y: int)
    requires y >= 10
    ensures |DigitsOf(y)| >= 2
    ensures DigitsOf(y)[|DigitsOf(y)| - 2..] == [DigitChar(y / 10 % 10), DigitChar(y % 10)]
  {
    var t := DigitsOf(y);
    assert t == DigitsOf(y / 10) + [DigitChar(y % 10)];
    var u := DigitsOf(y / 10);
    assert u[|u| - 1] == DigitChar(y / 10 % 10) by {
      if y / 10 >= 10 {
        assert u == DigitsOf(y / 10 / 10) + [DigitChar(y / 10 % 10)];
      }
    }
  }

  /** The "MMM YY" label of a month: `toLocaleString("en-US", {month:
      "short"})` or dayjs's "MMM", a space, and the year's last two digits. */
  function MonthLabel(ym: YearMonth): (r: string)
    requires ym.Valid()
    ensures ym.year >= 10 ==> r == MonthNames[ym.month] + " " + [DigitChar(ym.year / 10 % 10), DigitChar(ym.year % 10)]
  {
    MonthNames[ym.month] + " " + YearSuffix(ym.year)
  }

  function DigitOf(c: char): int {
    (c as int) - ('0' as int)
  }

  /** Reads a month label back: the month index and the two-digit year. */
  function ParseMonthLabel(text: string): Option<(int, int)> {
    if |text| == 6 && text[3] == ' ' && IsDigit(text[4]) && IsDigit(text[5]) then
      var name := text[..3];
      var i := IndexOfName(name, 0);
      if i < 12 then Some((i, DigitOf(text[4]) * 10 + DigitOf(text[5]))) else None
    else None
  }

  function IndexOfName(name: string, from: nat): (i: nat)
    requires from <= 12
    ensures from <= i <= 12
    ensures i < 12 ==> MonthNames[i] == name
    ensures forall j :: from <= j < i ==> MonthNames[j] != name
    decreases 12 - from
  {
    if from == 12 then 12
    else if MonthNames[from] == name then from
    else IndexOfName(name, from + 1)
  }

  lemma MonthNamesDistinct(i: int, j: int)
    requires 0 <= i < 12 && 0 <= j < 12 && i != j
    ensures MonthNames[i] != MonthNames[j]
  {
  }

  /** A month label determines the month and the year modulo 100. */
  lemma LabelRoundTrip(ym: YearMonth)
    requires ym.Valid() && ym.year >= 10
    ensures ParseMonthLabel(MonthLabel(ym)) == Some((ym.month, ym.year % 100))
  {
    var text := MonthLabel(ym);
    var y := ym.year;
    var tens, units := DigitChar(y / 10 % 10), DigitChar(y % 10);
    LabelShape(MonthNames[ym.month], tens, units, text);
    NameIndex(ym.month);
    TwoDigitsRead(y);
  }

  /** The tens and units digits of `y` read back as `y % 100`. */
  lemma TwoDigitsRead(y: int)
    ensures DigitOf(DigitChar(y / 10 % 10)) * 10 + DigitOf(DigitChar(y % 10)) == y % 100
  {
  }

  /** The fields of a label built from a three-letter name and two digits. */
  lemma LabelShape(name: string, tens: char, units: char, text: string)
    requires |name| == 3 && IsDigit(tens) && IsDigit(units)
    requires text == name + " " + [tens, units]
    ensures |text| == 6 && text[3] == ' ' && text[4] == tens && text[5] == units
    ensures text[..3] == name
  {
  }

  /** Looking a month's name up finds that month. */
  lemma NameIndex(m: int)
    requires 0 <= m < 12
    ensures IndexOfName(MonthNames[m], 0) == m
  {
    var i := IndexOfName(MonthNames[m], 0);
    if i < m {
      MonthNamesDistinct(i, m);
    }
  }

  /** Two months with the same label are the same month of years that agree
      modulo 100. */
  lemma LabelsDistinguishMonths(a: YearMonth, b: YearMonth)
    requires a.Valid() && b.Valid() && a.year >= 10 && b.year >= 10
    ensures MonthLabel(a) == MonthLabel(b) <==> a.month == b.month && a.year % 100 == b.year % 100
  {
    if MonthLabel(a) == MonthLabel(b) {
      LabelRoundTrip(a);
      LabelRoundTrip(b);
    }
    if a.month == b.month && a.year % 100 == b.year % 100 {
      DigitsOfLastTwo(a.year);
      DigitsOfLastTwo(b.year);
    }
  }

  /** The tens and units digits of `y` are those of `y % 100`. */
  lemma DigitsOfLastTwo(y: int)
    ensures y / 10 % 10 == y % 100 / 10
    ensures y % 10 == y % 100 % 10
  {
  }

  // ---------------------------------------------------------------------
  // dayjs("YYYY-MM-DD").format("MMM YY")

  /** The year, month and day fields of a "YYYY-MM-DD" string. */
  function ParseIsoDate(s: string): (r: Option<(nat, nat, nat)>)
    ensures r.Some? ==> r.value.0 < 10000 && r.value.1 < 100 && r.value.2 < 100
  {
    if |s| == 10 && s[4] == '-' && s[7] == '-'
       && AllDigits(s[..4]) && AllDigits(s[5..7]) && AllDigits(s[8..])
    then
      TwoDigitBound(s[5..7]);
      TwoDigitBound(s[8..]);
      FourDigitBound(s[..4]);
      Some((DigitsValue(s[..4]), DigitsValue(s[5..7]), DigitsValue(s[8..])))
    else None
  }

  /** The value of two and of four digit characters, digit by digit. */
  lemma TwoDigitsValue(cs: string)
    requires |cs| == 2 && AllDigits(cs)
    ensures DigitsValue(cs) == DigitOf(cs[0]) * 10 + DigitOf(cs[1])
  {
    assert DigitsValue(cs) == DigitsValue(cs[..1]) * 10 + DigitOf(cs[1]);
    assert DigitsValue(cs[..1]) == DigitsValue(cs[..1][..0]) * 10 + DigitOf(cs[0]);
    assert DigitsValue(cs[..1][..0]) == 0;
  }

  lemma FourDigitsValue(cs: string)
    requires |cs| == 4 && AllDigits(cs)
    ensures DigitsValue(cs)
         == ((DigitOf(cs[0]) * 10 + DigitOf(cs[1])) * 10 + DigitOf(cs[2])) * 10 + DigitOf(cs[3])
  {
    assert DigitsValue(cs) == DigitsValue(cs[..3]) * 10 + DigitOf(cs[3]);
    assert cs[..3][..2] == cs[..2];
    assert DigitsValue(cs[..3]) == DigitsValue(cs[..2]) * 10 + DigitOf(cs[2]);
    TwoDigitsValue(cs[..2]);
  }

  lemma TwoDigitBound(cs: string)
    requires |cs| == 2 && AllDigits(cs)
    ensures DigitsValue(cs) < 100
  {
    DigitsValueBound(cs);
  }

  lemma FourDigitBound(cs: string)
    requires |cs| == 4 && AllDigits(cs)
    ensures DigitsValue(cs) < 10000
  {
    DigitsValueBound(cs);
    assert Pow10(4) == 10000;
  }

  /** The date dayjs builds from a "YYYY-MM-DD" string: the Date
      constructor applied to the year, the month less one, and the day, so
      out-of-range months and days roll over. */
  function DayjsDate(s: string): (r: Option<Date>)
    ensures r.Some? <==> ParseIsoDate(s).Some?
    ensures r.Some? ==> r.value.Valid()
  {
    match ParseIsoDate(s)
    case None => None
    case Some(f) => Some(MakeDate(f.0, f.1 - 1, f.2))
  }

  /** `dayjs(s).format("MMM YY")`; `None` for a string outside the
      "YYYY-MM-DD" shape. */
  function DayjsMonthLabel(s: string): (r: Option<string>)
    ensures r.Some? <==> ParseIsoDate(s).Some?
  {
    match DayjsDate(s)
    case None => None
    case Some(d) => Some(MonthLabel(d.ym))
  }

  /** A well-formed date from year 100 on is labelled with its own month and
      the last two digits of its own year: no rollover and no time zone. */
  lemma LiteralDateLabel(s: string)
    requires ParseIsoDate(s).Some?
    requires var f := ParseIsoDate(s).value;
      f.0 >= 100 && 1 <= f.1 <= 12 && 1 <= f.2 <= DaysInMonth(YearMonth(f.0, f.1 - 1))
    ensures var f := ParseIsoDate(s).value;
      DayjsMonthLabel(s) == Some(MonthNames[f.1 - 1] + " " + YearSuffix(f.0))
  {
    var f := ParseIsoDate(s).value;
    assert ConstructorYear(f.0) == f.0;
    assert DayjsDate(s) == Some(Date(YearMonth(f.0, f.1 - 1), f.2));
  }
}

=== FILE: jsnumbers.dfy ===
/** JavaScript values as the chart pages see them, with numbers held as exact
    decimals: `Decimal(m, e)` stands for m / 10^e. The binary rounding of
    IEEE-754 doubles is not modelled; everything else about a number's value,
    its strict comparison with zero and its printed text is. */
module JsNumbers {

  function Pow10(n: nat): (r: nat)
    ensures r >= 1
  {
    if n == 0 then 1 else 10 * Pow10(n - 1)
  }

  lemma {:induction false} Pow10Add(a: nat, b: nat)
    ensures Pow10(a + b) == Pow10(a) * Pow10(b)
  {
    if b > 0 {
      Pow10Add(a, b - 1);
      assert Pow10(a + b) == 10 * Pow10(a + b - 1);
    }
  }

  /** An exact decimal number: `mantissa / 10^scale`. */
  datatype Decimal = Decimal(mantissa: int, scale: nat) {
    function Value(): real {
      mantissa as real / Pow10(scale) as real
    }
  }

  function Negate(d: Decimal): (r: Decimal)
    ensures r.Value() == -d.Value()
  {
    Decimal(-d.mantissa, d.scale)
  }

  /** A JavaScript number. `Infinite(true)` is `-Infinity`. */
  datatype JsNumber = Finite(d: Decimal) | Infinite(negative: bool) | NaN

  /** The JavaScript values the modelled fields can hold. */
  datatype JsValue = Undefined | Null | Num(n: JsNumber) | Str(s: string)

  /** JavaScript's `n === 0` on a number: NaN and the infinities are never
      equal to zero; a finite number is exactly when its value is 0. */
  predicate IsZero(n: JsNumber) {
    n.Finite? && n.d.mantissa == 0
  }

  lemma IsZeroMeansValueZero(n: JsNumber)
    ensures IsZero(n) <==> n.Finite? && n.d.Value() == 0.0
  {
    if n.Finite? && n.d.Value() == 0.0 {
      var p := Pow10(n.d.scale) as real;
      assert n.d.mantissa as real == n.d.Value() * p;
    }
  }

  /** JavaScript's `v === 0` on any value: only a number can be equal to 0. */
  predicate StrictEqualsZero(v: JsValue) {
    v.Num? && IsZero(v.n)
  }

  /** Two decimals denote the same number (cross-multiplied, so that the
      comparison stays in integers). */
  predicate SameValue(a: Decimal, b: Decimal) {
    a.mantissa * Pow10(b.scale) == b.mantissa * Pow10(a.scale)
  }

  lemma SameValueMeansEqual(a: Decimal, b: Decimal)
    ensures SameValue(a, b) <==> a.Value() == b.Value()
  {
    var pa, pb := Pow10(a.scale), Pow10(b.scale);
    CastProduct(a.mantissa, pb);
    CastProduct(b.mantissa, pa);
    QuotientsEqual(a.mantissa as real, pa as real, b.mantissa as real, pb as real);
  }

  lemma CastProduct(x: int, y: int)
    ensures (x * y) as real == x as real * y as real
  {
  }

  lemma QuotientsEqual(ma: real, pa: real, mb: real, pb: real)
    requires pa > 0.0 && pb > 0.0
    ensures ma / pa == mb / pb <==> ma * pb == mb * pa
  {
    var x, y := ma / pa, mb / pb;
    assert ma == x * pa;
    assert mb == y * pb;
    assert ma * pb == x * (pa * pb);
    assert mb * pa == y * (pa * pb);
    assert pa * pb > 0.0;
  }

  /** The same JavaScript number, in the sense of `Object.is` without -0:
      NaN matches NaN, each infinity itself, and decimals their value. */
  predicate SameNumber(x: JsNumber, y: JsNumber) {
    match x
    case NaN => y.NaN?
    case Infinite(negative) => y == Infinite(negative)
    case Finite(d) => y.Finite? && d.Value() == y.d.Value()
  }

  // ---------------------------------------------------------------------
  // Decimal digits

  predicate IsDigit(c: char) {
    '0' <= c <= '9'
  }

  predicate AllDigits(cs: seq<char>) {
    forall i :: 0 <= i < |cs| ==> IsDigit(cs[i])
  }

  function DigitChar(d: nat): (c: char)
    requires d < 10
    ensures IsDigit(c)
  {
    (('0' as int) + d) as char
  }

  /** The decimal text of `n` without leading zeros ("0" for zero). */
  function DigitsOf(n: nat): (r: seq<char>)
    ensures |r| >= 1 && AllDigits(r)
    ensures n > 0 ==> r[0] != '0'
  {
    if n < 10 then [DigitChar(n)] else DigitsOf(n / 10) + [DigitChar(n % 10)]
  }

  /** The number a string of decimal digits denotes. */
  function DigitsValue(cs: seq<char>): nat
    requires AllDigits(cs)
  {
    if |cs| == 0 then 0
    else DigitsValue(cs[..|cs| - 1]) * 10 + ((cs[|cs| - 1] as int) - ('0' as int))
  }

  lemma {:induction false} DigitsRoundTrip(n: nat)
    ensures DigitsValue(DigitsOf(n)) == n
  {
    if n >= 10 {
      DigitsRoundTrip(n / 10);
      var ds := DigitsOf(n);
      assert ds[..|ds| - 1] == DigitsOf(n / 10);
    }
  }

  lemma {:induction false} DigitsValueAppend(a: seq<char>, b: seq<char>)
    requires AllDigits(a) && AllDigits(b)
    ensures AllDigits(a + b)
    ensures DigitsValue(a + b) == DigitsValue(a) * Pow10(|b|) + DigitsValue(b)
  {
    if |b| > 0 {
      var b' := b[..|b| - 1];
      var last := (b[|b| - 1] as int) - ('0' as int);
      DigitsValueAppend(a, b');
      assert (a + b)[..|a + b| - 1] == a + b';
      var va, vb', p := DigitsValue(a), DigitsValue(b'), Pow10(|b'|);
      assert DigitsValue(a + b) == DigitsValue(a + b') * 10 + last;
      assert DigitsValue(b) == vb' * 10 + last;
      assert Pow10(|b|) == p * 10;
      ShiftDigit(va, p, vb', last);
    } else {
      assert a + b == a;
    }
  }

  lemma ShiftDigit(va: int, p: int, vb: int, last: int)
    ensures (va * p + vb) * 10 + last == va * (p * 10) + (vb * 10 + last)
  {
  }

  lemma {:induction false} DigitsValueBound(cs: seq<char>)
    requires AllDigits(cs)
    ensures DigitsValue(cs) < Pow10(|cs|)
  {
    if |cs| > 0 {
      DigitsValueBound(cs[..|cs| - 1]);
    }
  }

  function Zeros(k: nat): (r: seq<char>)
    ensures |r| == k && AllDigits(r)
  {
    seq(k, _ => '0')
  }

  lemma {:induction false} ZerosValue(k: nat)
    ensures DigitsValue(Zeros(k)) == 0
  {
    if k > 0 {
      assert Zeros(k)[..k - 1] == Zeros(k - 1);
      ZerosValue(k - 1);
    }
  }

  /** Leading zeros do not change the value of a run of digits. */
  lemma LeadingZerosValue(z: seq<char>, ds: seq<char>)
    requires AllDigits(z) && DigitsValue(z) == 0 && AllDigits(ds)
    ensures AllDigits(z + ds) && DigitsValue(z + ds) == DigitsValue(ds)
  {
    DigitsValueAppend(z, ds);
  }

  /** `m` with its trailing decimal zeros split off: m == s * 10^t, and s is
      not a multiple of 10. */
  function StripTrailingZeros(m: nat): (r: (nat, nat))
    requires m > 0
    ensures r.0 > 0 && r.0 % 10 != 0
    ensures m == r.0 * Pow10(r.1)
  {
    if m % 10 == 0 then
      var inner := StripTrailingZeros(m / 10);
      assert Pow10(inner.1 + 1) == 10 * Pow10(inner.1);
      (inner.0, inner.1 + 1)
    else (m, 0)
  }

  // ---------------------------------------------------------------------
  // Number::toString (radix 10), as used by template literals `${value}`

  /** The text JavaScript prints for a positive number m / 10^e. With s the
      significant digits, k their count and n the decimal exponent (so that
      the number is s * 10^(n-k)), the four layouts are: integer, fixed point,
      leading "0.000", and exponent notation. */
  function PositiveToString(m: nat, e: nat): (r: string)
    requires m > 0
    ensures |r| > 0 && IsDigit(r[0])
  {
    var st := StripTrailingZeros(m);
    var ds := DigitsOf(st.0);
    var k := |ds|;
    var n := k + st.1 - e;
    if k <= n <= 21 then ds + Zeros(n - k)
    else if 0 < n <= 21 then ds[..n] + "." + ds[n..]
    else if -6 < n <= 0 then "0." + Zeros(-n) + ds
    else
      ds[..1] + (if k == 1 then "" else "." + ds[1..]) + ExponentSuffix(n - 1)
  }

  /** The exponent part of exponent notation: "e+21", "e-7". */
  function ExponentSuffix(v: int): string {
    "e" + (if v >= 0 then "+" else "-") + DigitsOf(if v >= 0 then v else -v)
  }

  /** Number::toString: never empty, and starting with '-' exactly for the
      negative numbers. */
  function NumberToString(x: JsNumber): (r: string)
    ensures |r| > 0
    ensures r[0] == '-' <==> (x.Infinite? && x.negative) || (x.Finite? && x.d.mantissa < 0)
  {
    match x
    case NaN => "NaN"
    case Infinite(negative) => if negative then "-Infinity" else "Infinity"
    case Finite(d) =>
      if d.mantissa == 0 then "0"
      else if d.mantissa < 0 then "-" + PositiveToString(-d.mantissa, d.scale)
      else PositiveToString(d.mantissa, d.scale)
  }

  /** The text a template literal `${v}` produces for a value. */
  function ToText(v: JsValue): (r: string)
    ensures |r| == 0 <==> v == Str("")
    ensures v.Num? ==> (r[0] == '-' <==> (v.n.Infinite? && v.n.negative) || (v.n.Finite? && v.n.d.mantissa < 0))
  {
    match v
    case Undefined => "undefined"
    case Null => "null"
    case Num(n) => NumberToString(n)
    case Str(s) => s
  }
}

=== FILE: labellayout.dfy ===
/** The percentage labels drawn above the SP line. Each page's `CustomLabel`
    writes the value followed by "%" in white on a black rounded rectangle
    whose width is estimated from the number of characters. Coordinates are
    SVG coordinates: `y` grows downwards, so "above" means a smaller `y`. */
module LabelLayout {
  import opened Wrappers
  import opened JsNumbers
  import opened SalesNormalizer

  /** The constants of one page's label: pixels per character, horizontal
      padding, rectangle height and how far the text sits above the point. */
  datatype LabelStyle = LabelStyle(charWidth: nat, padding: nat, height: nat, lift: nat)

  /** `textWidth = length * 6 + 12`, `textHeight = 18`, text 10 above the
      point: the label of the monthly and baseline pages. */
  const MonthlyStyle: LabelStyle := LabelStyle(6, 12, 18, 10)

  /** `textWidth = length * 6 + 10`, `textHeight = 16`: the label of the
      fixed-range page. */
  const CompactStyle: LabelStyle := LabelStyle(6, 10, 16, 10)

  datatype Rect = Rect(x: real, y: real, width: real, height: real) {
    function Right(): real { x + width }
    function Bottom(): real { y + height }
  }

  /** What one label draws: the text, anchored at its middle, and the
      rectangle behind it. */
  datatype Annotation = Annotation(text: string, box: Rect, textX: real, textY: real)

  /** The template literal `${value}%`: the value's text with one '%'
      after it. */
  function PercentText(v: JsValue): (t: string)
    ensures |t| == |ToText(v)| + 1 && t[|t| - 1] == '%' && t[..|t| - 1] == ToText(v)
  {
    ToText(v) + "%"
  }

  /** The label for `value` at the data point `(x, y)`. */
  function Layout(style: LabelStyle, x: real, y: real, value: JsValue): (a: Annotation)
    ensures a.text == ToText(value) + "%"
    ensures a.textX == x && a.textY == y - style.lift as real
    ensures a.box.x + a.box.width / 2.0 == a.textX
    ensures a.box.y + a.box.height / 2.0 == a.textY
    ensures a.box.width == (style.charWidth * (|ToText(value)| + 1) + style.padding) as real
    ensures a.box.height == style.height as real
  {
    var text := PercentText(value);
    var w := (style.charWidth * |text| + style.padding) as real;
    var h := style.height as real;
    Annotation(text, Rect(x - w / 2.0, y - h / 2.0 - style.lift as real, w, h), x, y - style.lift as real)
  }

  /** The monthly page's label, which draws nothing for a `null` value. Only
      `null` is filtered: `undefined` is drawn as "undefined%". */
  function GuardedLabel(x: real, y: real, value: JsValue): (r: Option<Annotation>)
    ensures r.None? <==> value.Null?
    ensures r.Some? ==> r.value == Layout(MonthlyStyle, x, y, value)
  {
    if value.Null? then None else Some(Layout(MonthlyStyle, x, y, value))
  }

  /** A style whose rectangle is shorter than twice the lift draws its
      rectangle wholly above the point. Both pages' styles are such. */
  lemma LabelAbovePoint(style: LabelStyle, x: real, y: real, value: JsValue)
    requires style.height < 2 * style.lift
    ensures Layout(style, x, y, value).box.Bottom() < y
  {
  }

  /** On both pages the rectangle ends just above the point: one pixel above
      it on the monthly and baseline pages, two on the fixed-range page. */
  lemma PageLabelsAbovePoint(x: real, y: real, value: JsValue)
    ensures Layout(MonthlyStyle, x, y, value).box.Bottom() == y - 1.0
    ensures Layout(CompactStyle, x, y, value).box.Bottom() == y - 2.0
  {
    LabelAbovePoint(MonthlyStyle, x, y, value);
    LabelAbovePoint(CompactStyle, x, y, value);
  }

  /** For the same value and point, the fixed-range page's rectangle lies
      strictly inside the monthly page's, one pixel in on every side. */
  lemma CompactInsideMonthly(x: real, y: real, value: JsValue)
    ensures var inner, outer := Layout(CompactStyle, x, y, value).box, Layout(MonthlyStyle, x, y, value).box;
      && outer.x + 1.0 == inner.x
      && inner.Right() + 1.0 == outer.Right()
      && outer.y + 1.0 == inner.y
      && inner.Bottom() + 1.0 == outer.Bottom()
  {
  }

  /** The label of a number, read back through the monthly page's `parseSp`,
      gives that number again. */
  lemma LabelReadsBack(style: LabelStyle, x: real, y: real, n: JsNumber)
    ensures ParseSp(Str(Layout(style, x, y, Num(n)).text)).Ok?
    ensures SameNumber(ParseSp(Str(Layout(style, x, y, Num(n)).text)).value, n)
  {
    ParseSpReadsPercentText(n, Layout(style, x, y, Num(n)).text);
  }

  /** A normalised point gets no label exactly when its `sp` parsed to zero;
      otherwise the label reads back as the parsed percentage. */
  lemma NormalizedLabel(r: RawMonth, x: real, y: real)
    requires NormalizeRecord(r).Ok?
    ensures GuardedLabel(x, y, NormalizeRecord(r).value.sp).None? <==> IsZero(ParseSp(r.sp).value)
    ensures !IsZero(ParseSp(r.sp).value) ==>
      SameNumber(ParseSp(Str(GuardedLabel(x, y, NormalizeRecord(r).value.sp).value.text)).value, ParseSp(r.sp).value)
  {
    if !IsZero(ParseSp(r.sp).value) {
      LabelReadsBack(MonthlyStyle, x, y, ParseSp(r.sp).value);
    }
  }

  /** The last two records of the monthly page's data draw no SP label. */
  lemma SentinelRecordsHaveNoLabel(x: real, y: real)
    ensures GuardedLabel(x, y, NormalizeRecord(RawMonth("2025-05-01", Num(Finite(Decimal(0, 0))),
                                                        Num(Finite(Decimal(3449, 0))), Num(Finite(Decimal(0, 0))))).value.sp).None?
    ensures GuardedLabel(x, y, NormalizeRecord(RawMonth("2025-06-01", Num(Finite(Decimal(4407841, 3))),
                                                        Num(Finite(Decimal(0, 0))), Num(Finite(Decimal(0, 0))))).value.sp).None?
  {
    SentinelRecordsExample();
  }

  /** 98.5 is drawn as "98.5%" in a 42-pixel rectangle on the monthly page
      and a 40-pixel one on the fixed-range page. */
  lemma LabelWidthExample(x: real, y: real)
    ensures Layout(MonthlyStyle, x, y, Num(Finite(Decimal(985, 1)))).text == "98.5%"
    ensures Layout(MonthlyStyle, x, y, Num(Finite(Decimal(985, 1)))).box.width == 42.0
    ensures Layout(CompactStyle, x, y, Num(Finite(Decimal(985, 1)))).box.width == 40.0
  {
    NumberTextExample();
  }

  lemma NumberTextExample()
    ensures NumberToString(Finite(Decimal(985, 1))) == "98.5"
  {
    assert DigitsOf(985) == "985";
  }

  /** An `undefined` value is not filtered and is drawn as "undefined%". */
  lemma UndefinedIsDrawn(x: real, y: real)
    ensures GuardedLabel(x, y, Undefined).Some?
    ensures GuardedLabel(x, y, Undefined).value.text == "undefined%"
  {
  }
}

=== FILE: mockseries.dfy ===
/** The two monthly series generators. Each builds 32 records, one per month
    from July 2023 to February 2026, labelled "MMM YY", with volumes and a
    percentage drawn at random within fixed ranges. The random numbers
    `Math.random()` would return are given as parameters in [0, 1), three per
    month, in the order the code draws them. */
module MockSeries {
  import opened Wrappers
  import opened JsNumbers
  import opened NumberParsing
  import opened NumberRoundTrip
  import opened Calendar

  const StartYear: int := 2023
  /** July, as a 0-based month index. */
  const StartMonth: int := 6
  const NumberOfMonths: nat := 32

  /** The three draws of one month: for BOP, for SH, for SP. */
  datatype Draws = Draws(bop: real, sh: real, sp: real)

  predicate IsRandom(r: real) {
    0.0 <= r < 1.0
  }

  /** What `Math.random()` can deliver for the whole series. */
  predicate ValidDraws(draws: seq<Draws>) {
    |draws| == NumberOfMonths
    && forall i :: 0 <= i < |draws| ==>
         IsRandom(draws[i].bop) && IsRandom(draws[i].sh) && IsRandom(draws[i].sp)
  }

  /** One generated record `{month, BOP, SH, SP}`. */
  datatype MonthPoint = MonthPoint(month: string, bop: int, sh: int, sp: JsNumber)

  // ---------------------------------------------------------------------
  // Month labels

  /** The month of record `i`: `new Date(2023, 6 + i, 1)`, the first of the
      month `i` months after July 2023. */
  function SeriesDate(i: int): (r: Date)
    ensures r.Valid() && r.day == 1
    ensures Index(r.ym) == StartYear * 12 + StartMonth + i
  {
    MakeDate(StartYear, StartMonth + i, 1)
  }

  /** The label of record `i`: that of month `(6 + i) mod 12` of the year
      `2023 + (6 + i) div 12`, with no rollover. */
  function SeriesLabel(i: int): (r: string)
    ensures i >= -StartMonth ==>
      var ym := YearMonth(StartYear + (StartMonth + i) / 12, (StartMonth + i) % 12);
      ym.Valid() && r == MonthLabel(ym)
  {
    if i >= -StartMonth then
      SeriesMonthArithmetic(i);
      MonthLabel(SeriesDate(i).ym)
    else MonthLabel(SeriesDate(i).ym)
  }

  /** Record `i` falls in month `(6 + i) mod 12` of year `2023 + (6 + i) div 12`:
      the first of a month never rolls over. */
  lemma SeriesMonthArithmetic(i: int)
    ensures SeriesDate(i) == Date(FromIndex(StartYear * 12 + StartMonth + i), 1)
    ensures i >= -6 ==> SeriesDate(i).ym == YearMonth(StartYear + (StartMonth + i) / 12, (StartMonth + i) % 12)
  {
    var a := StartYear * 12 + StartMonth + i;
    if i >= -6 {
      DivModUnique(a, StartYear + (StartMonth + i) / 12, (StartMonth + i) % 12);
    }
  }

  /** Consecutive records are consecutive calendar months. */
  lemma SeriesLabelsConsecutive(i: int)
    ensures SeriesDate(i + 1).ym == Next(SeriesDate(i).ym)
    ensures SeriesLabel(i + 1) == MonthLabel(Next(SeriesDate(i).ym))
  {
    SeriesMonthArithmetic(i);
    SeriesMonthArithmetic(i + 1);
    var ym := FromIndex(StartYear * 12 + StartMonth + i);
    NextIsSuccessor(ym);
  }

  /** The series runs from "Jul 23" to "Feb 26". */
  lemma SeriesEnds()
    ensures SeriesLabel(0) == "Jul 23"
    ensures SeriesLabel(NumberOfMonths - 1) == "Feb 26"
  {
    assert (StartMonth + NumberOfMonths - 1) / 12 == 3 && (StartMonth + NumberOfMonths - 1) % 12 == 1;
    July2023Label();
    February2026Label();
  }

  lemma July2023Label()
    ensures MonthLabel(YearMonth(2023, 6)) == "Jul 23"
  {
    MonthLabelText(YearMonth(2023, 6), "Jul 23");
  }

  lemma February2026Label()
    ensures MonthLabel(YearMonth(2026, 1)) == "Feb 26"
  {
    MonthLabelText(YearMonth(2026, 1), "Feb 26");
  }

  /** The label of a month of this century, spelled out. */
  lemma MonthLabelText(ym: YearMonth, text: string)
    requires ym.Valid() && 2000 <= ym.year < 2100
    requires text == MonthNames[ym.month] + " " + [DigitChar(ym.year / 10 % 10), DigitChar(ym.year % 10)]
    ensures MonthLabel(ym) == text
  {
  }

  /** No two records of the series carry the same label. */
  lemma SeriesLabelsDistinct(i: int, j: int)
    requires 0 <= i < NumberOfMonths && 0 <= j < NumberOfMonths && i != j
    ensures SeriesLabel(i) != SeriesLabel(j)
  {
    var a, b := SeriesDate(i).ym, SeriesDate(j).ym;
    SeriesMonthInCentury(i);
    SeriesMonthInCentury(j);
    assert a.month != b.month || a.year % 100 != b.year % 100;
    LabelsDistinguishMonths(a, b);
  }

  /** The months of the series lie in this century, at their own index. */
  lemma SeriesMonthInCentury(i: int)
    requires 0 <= i < NumberOfMonths
    ensures var ym := SeriesDate(i).ym;
      ym.Valid() && 2023 <= ym.year <= 2026 && ym.year % 100 == ym.year - 2000
      && ym.year * 12 + ym.month == StartYear * 12 + StartMonth + i
  {
    SeriesMonthArithmetic(i);
  }

  // ---------------------------------------------------------------------
  // Arithmetic of the generated values

  /** `Math.round`: the nearest integer, halves rounded up. */
  function Round(x: real): (n: int)
    ensures x - 0.5 < n as real <= x + 0.5
  {
    (x + 0.5).Floor
  }

  /** `Math.min(Math.max(x, lo), hi)`. */
  function Clamp(x: real, lo: real, hi: real): (r: real)
    requires lo <= hi
    ensures lo <= r <= hi
    ensures x < lo ==> r == lo
    ensures x > hi ==> r == hi
    ensures lo <= x <= hi ==> r == x
  {
    if x < lo then lo else if x > hi then hi else x
  }

  /** `parseFloat(x.toFixed(2))`: the number rounded to hundredths, halves
      away from zero. */
  function Round2(x: real): (d: Decimal)
    ensures d.scale == 2
    ensures x >= 0.0 ==> x - 0.005 < d.Value() <= x + 0.005
  {
    var n := if x < 0.0 then -Round(-x * 100.0) else Round(x * 100.0);
    HundredthsValue(n);
    Decimal(n, 2)
  }

  lemma HundredthsValue(n: int)
    ensures Decimal(n, 2).Value() == n as real / 100.0
  {
    assert Pow10(2) == 100;
  }

  /** Rounding keeps a value inside bounds that are whole hundredths. */
  lemma Round2Within(x: real, lo: int, hi: int)
    requires lo as real / 100.0 <= x <= hi as real / 100.0
    ensures lo as real / 100.0 <= Round2(x).Value() <= hi as real / 100.0
  {
    var n := Round2(x).mantissa;
    if x < 0.0 {
      RoundWithin(-x * 100.0, -hi, -lo);
    } else {
      RoundWithin(x * 100.0, lo, hi);
    }
    assert lo <= n <= hi;
    HundredthsValue(n);
  }

  /** Rounding keeps a value inside integer bounds. */
  lemma RoundWithin(y: real, lo: int, hi: int)
    requires lo as real <= y <= hi as real
    ensures lo <= Round(y) <= hi
  {
  }

  // ---------------------------------------------------------------------
  // The generator with fixed ranges (src/pages/demo3)

  /** `Math.floor(r * (28000 - 15000 + 1)) + 15000`: an integer in
      [15000, 28000]. */
  function RangeBop(r: real): (bop: int)
    ensures IsRandom(r) ==> 15000 <= bop <= 28000
  {
    (r * 13001.0).Floor + 15000
  }

  /** `Math.floor(bop * (r * (1.05 - 0.95) + 0.95))`: within 5% of `bop`,
      rounded down. */
  function RangeSh(bop: int, r: real): (sh: int)
    ensures 0 <= bop && IsRandom(r) ==> (bop as real * 0.95).Floor <= sh <= (bop as real * 1.05).Floor
  {
    if 0 <= bop && IsRandom(r) then
      ShareFloorBetween(bop as real, r);
      (bop as real * (r * 0.1 + 0.95)).Floor
    else (bop as real * (r * 0.1 + 0.95)).Floor
  }

  /** A non-negative amount scaled by a factor drawn from [0.95, 1.05) and
      rounded down lies between its 95% and its 105%, each rounded down. */
  lemma ShareFloorBetween(a: real, r: real)
    requires 0.0 <= a && IsRandom(r)
    ensures (a * 0.95).Floor <= (a * (r * 0.1 + 0.95)).Floor <= (a * 1.05).Floor
  {
    ProductNonnegative(a, r);
    ProductNonnegative(a, 1.0 - r);
    FloorMonotone(a * 0.95, a * (r * 0.1 + 0.95));
    FloorMonotone(a * (r * 0.1 + 0.95), a * 1.05);
  }

  /** `parseFloat((r * (102 - 88) + 88).toFixed(2))`: a two-place decimal
      in [88, 102] within half a hundredth of `r * 14 + 88`. */
  function RangeSp(r: real): (sp: Decimal)
    ensures sp.scale == 2
    ensures IsRandom(r) ==> 88.0 <= sp.Value() <= 102.0
    ensures IsRandom(r) ==> r * 14.0 + 88.0 - 0.005 < sp.Value() <= r * 14.0 + 88.0 + 0.005
  {
    if IsRandom(r) then
      Round2Within(r * 14.0 + 88.0, 8800, 10200);
      Round2(r * 14.0 + 88.0)
    else Round2(r * 14.0 + 88.0)
  }

  /** The object pushed for one month of the fixed-range series: the given
      label, a BOP draw, an SH draw within 5% of that BOP, and a two-place SP. */
  function RangePoint(month: string, d: Draws): (p: MonthPoint)
    ensures p.month == month
    ensures p.sp.Finite? && p.sp.d.scale == 2
    ensures IsRandom(d.bop) ==> 15000 <= p.bop <= 28000
    ensures IsRandom(d.bop) && IsRandom(d.sh) ==>
      (p.bop as real * 0.95).Floor <= p.sh <= (p.bop as real * 1.05).Floor
    ensures IsRandom(d.sp) ==> 88.0 <= p.sp.d.Value() <= 102.0
  {
    var bop := RangeBop(d.bop);
    MonthPoint(month, bop, RangeSh(bop, d.sh), Finite(RangeSp(d.sp)))
  }

  /** The ranges every record of the fixed-range series respects: BOP an
      integer in [15000, 28000], SH within 5% of BOP (rounded down), SP in
      [88, 102] to two decimals. */
  predicate InFixedRanges(p: MonthPoint) {
    && 15000 <= p.bop <= 28000
    && (p.bop as real * 0.95).Floor <= p.sh <= (p.bop as real * 1.05).Floor
    && p.sp.Finite? && p.sp.d.scale == 2
    && 88.0 <= p.sp.d.Value() <= 102.0
  }

  lemma ScaleMonotone(a: real, x: real, y: real)
    requires 0.0 <= a && x <= y
    ensures a * x <= a * y
  {
  }

  lemma ProductNonnegative(x: real, y: real)
    requires 0.0 <= x && 0.0 <= y
    ensures 0.0 <= x * y
  {
  }

  lemma FloorMonotone(x: real, y: real)
    requires x <= y
    ensures x.Floor <= y.Floor
  {
  }

  /** The records a month-by-month loop has pushed after `n` rounds, when
      round `k` pushes `point(k, draws[k])`. */
  function Pushed(draws: seq<Draws>, n: nat, point: (int, Draws) -> MonthPoint): (data: seq<MonthPoint>)
    requires n <= |draws|
    ensures |data| == n
  {
    if n == 0 then [] else Pushed(draws, n - 1, point) + [point(n - 1, draws[n - 1])]
  }

  /** Record `k` is the one pushed in round `k`, from the `k`-th draws alone. */
  lemma {:induction false} PushedAt(draws: seq<Draws>, n: nat, point: (int, Draws) -> MonthPoint, k: nat)
    requires n <= |draws| && k < n
    ensures Pushed(draws, n, point)[k] == point(k, draws[k])
  {
    var init := Pushed(draws, n - 1, point);
    assert Pushed(draws, n, point) == init + [point(n - 1, draws[n - 1])];
    if k < n - 1 {
      PushedAt(draws, n - 1, point, k);
      assert Pushed(draws, n, point)[k] == init[k];
    }
  }

  /** The first `n` records of the fixed-range series, month by month. */
  function FixedRangeSeries(draws: seq<Draws>, n: nat): (data: seq<MonthPoint>)
    requires n <= |draws|
    ensures |data| == n
  {
    Pushed(draws, n, (k: int, d: Draws) => RangePoint(SeriesLabel(k), d))
  }

  /** Record `k` of the series is labelled with month `k` after the start and
      built from the `k`-th draws alone. */
  lemma FixedRangeSeriesAt(draws: seq<Draws>, n: nat, k: nat)
    requires n <= |draws| && k < n
    ensures FixedRangeSeries(draws, n)[k] == RangePoint(SeriesLabel(k), draws[k])
  {
    PushedAt(draws, n, (k: int, d: Draws) => RangePoint(SeriesLabel(k), d), k);
  }

  /** Every record of a full series, whatever the draws, carries its month
      label and respects the fixed ranges. */
  lemma FixedRangeSeriesRecord(draws: seq<Draws>, k: nat)
    requires ValidDraws(draws) && k < NumberOfMonths
    ensures FixedRangeSeries(draws, NumberOfMonths)[k].month == SeriesLabel(k)
    ensures InFixedRanges(FixedRangeSeries(draws, NumberOfMonths)[k])
  {
    FixedRangeSeriesAt(draws, NumberOfMonths, k);
  }

  /** `generateMockData()` of the fixed-range page. */
  method GenerateFixedRangeSeries(draws: seq<Draws>) returns (data: seq<MonthPoint>)
    requires ValidDraws(draws)
    ensures data == FixedRangeSeries(draws, NumberOfMonths)
    ensures |data| == NumberOfMonths
    ensures data[0].month == "Jul 23" && data[NumberOfMonths - 1].month == "Feb 26"
  {
    data := [];
    var i := 0;
    while i < NumberOfMonths
      invariant 0 <= i <= NumberOfMonths
      invariant data == FixedRangeSeries(draws, i)
    {
      data := data + [RangePoint(SeriesLabel(i), draws[i])];
      i := i + 1;
    }
    FixedRangeSeriesAt(draws, NumberOfMonths, 0);
    FixedRangeSeriesAt(draws, NumberOfMonths, NumberOfMonths - 1);
    SeriesEnds();
  }

  // ---------------------------------------------------------------------
  // The generator around a category baseline (src/pages/demo4)

  /** One category total of the snapshot: `{total, shpm_sum, bop_sum, sp,
      month}`. */
  datatype CategoryTotal = CategoryTotal(total: bool, shpmSum: real, bopSum: real, sp: JsValue, month: string)

  /** The snapshot, keyed by category name. */
  type Snapshot = map<string, CategoryTotal>

  const BaselineCategory: string := "FAMILYCARE"

  /** The page's string-only `parseSp`: anything but a string has no
      `replace` method and throws. */
  function ParseSpString(v: JsValue): (r: Result<JsNumber>)
    ensures r.Ok? <==> v.Str?
  {
    match v
    case Str(s) => Ok(ParseFloat(RemoveFirstPercent(s)))
    case Num(_) => Err(TypeError("spString.replace is not a function"))
    case Null => Err(TypeError("Cannot read properties of null (reading 'replace')"))
    case Undefined => Err(TypeError("Cannot read properties of undefined (reading 'replace')"))
  }

  /** The baseline the series varies around: the FAMILYCARE volumes in
      thousands and its parsed percentage. */
  datatype Baseline = Baseline(shpm: real, bop: real, sp: JsNumber)

  function BaselineOf(base: Snapshot): (r: Result<Baseline>)
    ensures r.Ok? <==> BaselineCategory in base && base[BaselineCategory].sp.Str?
    ensures r.Ok? ==> r.value.bop * 1000.0 == base[BaselineCategory].bopSum
    ensures r.Ok? ==> r.value.shpm * 1000.0 == base[BaselineCategory].shpmSum
    ensures r.Ok? ==> Ok(r.value.sp) == ParseSpString(base[BaselineCategory].sp)
  {
    if BaselineCategory !in base then
      Err(TypeError("Cannot read properties of undefined (reading 'shpm_sum')"))
    else
      var c := base[BaselineCategory];
      match ParseSpString(c.sp)
      case Err(e) => Err(e)
      case Ok(sp) => Ok(Baseline(c.shpmSum / 1000.0, c.bopSum / 1000.0, sp))
  }

  /** `v * (1 + (r - 0.5) * spread)`: the value `v` moved by the draw `r`,
      by at most half the spread either way. */
  function Vary(v: real, r: real, spread: real): real {
    v * (1.0 + (r - 0.5) * spread)
  }

  /** `Math.round(Math.min(Math.max(v * (1 + (r - 0.5) * 0.2), 10000), 30000))`:
      always an integer in [10000, 30000]; the nearest integer to the varied
      volume when that lies inside the bounds, and the bound it passed
      otherwise. */
  function VariedVolume(v: real, r: real): (n: int)
    ensures 10000 <= n <= 30000
    ensures var y := Vary(v, r, 0.2);
      && (10000.0 <= y <= 30000.0 ==> y - 0.5 < n as real <= y + 0.5)
      && (y < 10000.0 ==> n == 10000)
      && (y > 30000.0 ==> n == 30000)
  {
    Round(Clamp(Vary(v, r, 0.2), 10000.0, 30000.0))
  }

  /** `parseFloat(Math.min(Math.max(sp * (1 + (r - 0.5) * 0.1), 88), 102).toFixed(2))`.
      NaN passes through `Math.max`, `Math.min`, `toFixed` and `parseFloat`
      unchanged; an infinity is clamped to the bound on its side; a finite
      percentage becomes a two-place decimal in [88, 102], within half a
      hundredth of the varied value when that lies inside the bounds. */
  function VariedSp(sp: JsNumber, r: real): (v: JsNumber)
    ensures v.NaN? <==> sp.NaN?
    ensures !sp.NaN? ==> v.Finite? && v.d.scale == 2 && 88.0 <= v.d.Value() <= 102.0
    ensures sp.Infinite? ==> v.d.Value() == if sp.negative then 88.0 else 102.0
    ensures sp.Finite? ==> var y := Vary(sp.d.Value(), r, 0.1);
      && (88.0 <= y <= 102.0 ==> y - 0.005 < v.d.Value() <= y + 0.005)
      && (y < 88.0 ==> v.d.Value() == 88.0)
      && (y > 102.0 ==> v.d.Value() == 102.0)
  {
    match sp
    case NaN => NaN
    case Infinite(negative) =>
      var bound := if negative then 88.0 else 102.0;
      ClampedHundredths(bound);
      Finite(Round2(bound))
    case Finite(d) =>
      var y := Vary(d.Value(), r, 0.1);
      ClampedHundredths(y);
      Finite(Round2(Clamp(y, 88.0, 102.0)))
  }

  /** Clamping to [88, 102] and rounding to hundredths. */
  lemma ClampedHundredths(y: real)
    ensures var v := Round2(Clamp(y, 88.0, 102.0));
      && v.scale == 2 && 88.0 <= v.Value() <= 102.0
      && (88.0 <= y <= 102.0 ==> y - 0.005 < v.Value() <= y + 0.005)
      && (y < 88.0 ==> v.Value() == 88.0)
      && (y > 102.0 ==> v.Value() == 102.0)
  {
    var c := Clamp(y, 88.0, 102.0);
    Round2Within(c, 8800, 10200);
    HundredthsValue(Round(c * 100.0));
  }

  /** The object pushed for record `i` of the baseline series: its month
      label and the baseline's volumes and SP, each varied and clamped. */
  function VariedPoint(b: Baseline, i: int, d: Draws): (p: MonthPoint)
    ensures p.month == SeriesLabel(i)
    ensures InClampedRanges(p, b.sp)
    ensures var y := Vary(b.bop, d.bop, 0.2);
      10000.0 <= y <= 30000.0 ==> y - 0.5 < p.bop as real <= y + 0.5
    ensures var y := Vary(b.shpm, d.sh, 0.2);
      10000.0 <= y <= 30000.0 ==> y - 0.5 < p.sh as real <= y + 0.5
  {
    var bop := VariedVolume(b.bop, d.bop);
    var sh := VariedVolume(b.shpm, d.sh);
    MonthPoint(SeriesLabel(i), bop, sh, VariedSp(b.sp, d.sp))
  }

  /** The bounds every record of the baseline series respects: BOP and SH
      integers in [10000, 30000]; SP NaN exactly when the baseline
      percentage is NaN, and otherwise in [88, 102] to two decimals. */
  predicate InClampedRanges(p: MonthPoint, baseSp: JsNumber) {
    && 10000 <= p.bop <= 30000
    && 10000 <= p.sh <= 30000
    && (p.sp.NaN? <==> baseSp.NaN?)
    && (!baseSp.NaN? ==> p.sp.Finite? && p.sp.d.scale == 2 && 88.0 <= p.sp.d.Value() <= 102.0)
  }

  /** The first `n` records of the series around baseline `b`. */
  function BaselineSeries(b: Baseline, draws: seq<Draws>, n: nat): (data: seq<MonthPoint>)
    requires n <= |draws|
    ensures |data| == n
  {
    Pushed(draws, n, (k: int, d: Draws) => VariedPoint(b, k, d))
  }

  /** Record `k` of the series is labelled with month `k` after the start and
      built from the baseline and the `k`-th draws alone. */
  lemma BaselineSeriesAt(b: Baseline, draws: seq<Draws>, n: nat, k: nat)
    requires n <= |draws| && k < n
    ensures BaselineSeries(b, draws, n)[k] == VariedPoint(b, k, draws[k])
  {
    PushedAt(draws, n, (k: int, d: Draws) => VariedPoint(b, k, d), k);
  }

  /** Every record of a full series carries its month label and respects the
      clamped bounds, with NaN in SP exactly when the baseline's is NaN. */
  lemma BaselineSeriesRecord(b: Baseline, draws: seq<Draws>, k: nat)
    requires ValidDraws(draws) && k < NumberOfMonths
    ensures BaselineSeries(b, draws, NumberOfMonths)[k].month == SeriesLabel(k)
    ensures InClampedRanges(BaselineSeries(b, draws, NumberOfMonths)[k], b.sp)
  {
    BaselineSeriesAt(b, draws, NumberOfMonths, k);
  }

  /** `generateMockData(baseData)` of the baseline page: the baseline is read
      first, so a missing FAMILYCARE entry or a non-string `sp` throws before
      any record is built. */
  method GenerateBaselineSeries(base: Snapshot, draws: seq<Draws>) returns (r: Result<seq<MonthPoint>>)
    requires ValidDraws(draws)
    ensures r.Ok? <==> BaselineOf(base).Ok?
    ensures r.Err? ==> r.error == BaselineOf(base).error
    ensures r.Ok? ==> r.value == BaselineSeries(BaselineOf(base).value, draws, NumberOfMonths)
    ensures r.Ok? ==> |r.value| == NumberOfMonths
  {
    var baseline := BaselineOf(base);
    if baseline.Err? {
      return Err(baseline.error);
    }
    var data := VarySeries(baseline.value, draws);
    r := Ok(data);
  }

  /** The loop of `generateMockData(baseData)` once the baseline is known. */
  method VarySeries(b: Baseline, draws: seq<Draws>) returns (data: seq<MonthPoint>)
    requires ValidDraws(draws)
    ensures data == BaselineSeries(b, draws, NumberOfMonths)
    ensures data[0].month == "Jul 23" && data[NumberOfMonths - 1].month == "Feb 26"
  {
    data := [];
    var i := 0;
    while i < NumberOfMonths
      invariant 0 <= i <= NumberOfMonths
      invariant data == BaselineSeries(b, draws, i)
    {
      data := data + [VariedPoint(b, i, draws[i])];
      i := i + 1;
    }
    BaselineSeriesAt(b, draws, NumberOfMonths, 0);
    BaselineSeriesAt(b, draws, NumberOfMonths, NumberOfMonths - 1);
    SeriesEnds();
  }

  // ---------------------------------------------------------------------
  // The snapshot shipped with the baseline page

  /** The FAMILYCARE entry of the page's snapshot. */
  const FamilyCare: CategoryTotal := CategoryTotal(true, 27967016.0, 27660429.0, Str("101.10%"), "Aug 23")

  /** The page's snapshot yields the baseline 27660.429 thousand (BOP),
      27967.016 thousand (SH) and 101.1 (SP). */
  lemma FamilyCareBaselineRead(base: Snapshot)
    requires BaselineCategory in base && base[BaselineCategory] == FamilyCare
    ensures BaselineOf(base) == Ok(FamilyCareBaseline)
  {
    FamilyCareSp();
  }

  /** "101.10%" parses to 101.10. */
  lemma FamilyCareSp()
    ensures ParseSpString(Str("101.10%")) == Ok(Finite(Decimal(10110, 2)))
  {
    assert "101.10%" == "101" + "." + "10" + "%";
    assert "101" + "10" == DigitsOf(10110);
    DigitsRoundTrip(10110);
    ParseSpStringPointedPercent("101", "10");
  }

  /** The string-only `parseSp` of "digits.digits%" reads the digits as a
      decimal with as many places as the fraction has digits. */
  lemma ParseSpStringPointedPercent(whole: string, frac: string)
    requires AllDigits(whole) && AllDigits(frac) && |whole| > 0
    ensures AllDigits(whole + frac)
    ensures ParseSpString(Str(whole + "." + frac + "%")) == Ok(Finite(Decimal(DigitsValue(whole + frac), |frac|)))
  {
    ParsePointedPercent(whole, frac);
  }

  /** Around the shipped baseline the lower clamps never act: BOP stays at
      or above 24894, SH at or above 25170 and SP at or above 96.05, while
      the upper clamps can. */
  lemma FamilyCareSeriesBounds(i: int, d: Draws)
    requires IsRandom(d.bop) && IsRandom(d.sh) && IsRandom(d.sp)
    ensures 24894 <= VariedPoint(FamilyCareBaseline, i, d).bop <= 30000
    ensures 25170 <= VariedPoint(FamilyCareBaseline, i, d).sh <= 30000
    ensures VariedPoint(FamilyCareBaseline, i, d).sp.Finite?
    ensures 96.05 <= VariedPoint(FamilyCareBaseline, i, d).sp.d.Value() <= 102.0
  {
    VariedVolumeAtLeast(FamilyCareBaseline.bop, d.bop, 24894);
    VariedVolumeAtLeast(FamilyCareBaseline.shpm, d.sh, 25170);
    FamilyCareSpAtLeast(d.sp);
  }

  /** A volume whose 90% lies at least half a unit above `lo - 1` varies to
      at least `lo`. */
  lemma VariedVolumeAtLeast(v: real, r: real, lo: int)
    requires IsRandom(r) && 0.0 <= v && lo as real <= v * 0.9 + 0.5 && lo <= 30000
    ensures lo <= VariedVolume(v, r)
  {
    ScaleMonotone(v, 0.9, 1.0 + (r - 0.5) * 0.2);
  }

  lemma FamilyCareSpAtLeast(r: real)
    requires IsRandom(r)
    ensures VariedSp(FamilyCareBaseline.sp, r).Finite?
    ensures 96.05 <= VariedSp(FamilyCareBaseline.sp, r).d.Value()
  {
    var f := 1.0 + (r - 0.5) * 0.1;
    HundredthsValue(10110);
    MultiplyEqual(Decimal(10110, 2).Value(), 101.1, f);
    var v := VariedSp(FamilyCareBaseline.sp, r);
    HundredthsValue(v.d.mantissa);
    assert v.d.mantissa > 9604;
  }

  /** Equal reals scale equally; a separate step so that the real
      multiplication stays out of the caller's proof. */
  lemma MultiplyEqual(a: real, b: real, f: real)
    requires a == b
    ensures a * f == b * f
  {
  }

  const FamilyCareBaseline: Baseline := Baseline(27967.016, 27660.429, Finite(Decimal(10110, 2)))

  /** The BOP upper clamp does act around the shipped baseline. */
  lemma FamilyCareBopCanClamp()
    ensures VariedVolume(FamilyCareBaseline.bop, 0.99) == 30000
  {
  }
}

=== FILE: normalizer.dfy ===
/** The record normaliser of the monthly sales chart: each raw record
    `{month_date, shpm_sp, bop_sum_sp, sp}` becomes a chart point
    `{month, BOP, SH, SP}`. Exactly the number 0 in a field is the "missing"
    sentinel and becomes `null`, field by field; the volumes pass through
    unscaled; `sp` is read as a percentage by `parseSp`. */
module SalesNormalizer {
  import opened Wrappers
  import opened JsNumbers
  import opened NumberParsing
  import opened NumberRoundTrip
  import opened Calendar

  /** One raw monthly record. */
  datatype RawMonth = RawMonth(monthDate: string, shpmSp: JsValue, bopSumSp: JsValue, sp: JsValue)

  /** One chart point. `month` is `None` for a date string outside the
      "YYYY-MM-DD" shape, which this model does not follow. */
  datatype ChartPoint = ChartPoint(month: Option<string>, bop: JsValue, sh: JsValue, sp: JsValue)

  /** The TypeError V8 raises for `v.replace(...)` on `null` or `undefined`. */
  function ReplaceOnNothing(v: JsValue): Failure
    requires v.Null? || v.Undefined?
  {
    TypeError("Cannot read properties of " + (if v.Null? then "null" else "undefined")
              + " (reading 'replace')")
  }

  /** `parseSp`: a number is returned as it is; a string loses its first '%'
      and is read by `parseFloat`; `null` and `undefined` have no `replace`
      method and throw. */
  function ParseSp(v: JsValue): (r: Result<JsNumber>)
    ensures r.Err? <==> v.Null? || v.Undefined?
    ensures v.Num? ==> r == Ok(v.n)
  {
    match v
    case Num(n) => Ok(n)
    case Str(s) => Ok(ParseFloat(RemoveFirstPercent(s)))
    case _ => Err(ReplaceOnNothing(v))
  }

  /** `x === 0 ? null : x`: every value but a zero number passes through
      unchanged, and what comes out is never a zero number. */
  function NullIfZero(v: JsValue): (r: JsValue)
    ensures r == v <==> !StrictEqualsZero(v)
    ensures r != v ==> r == Null
    ensures !StrictEqualsZero(r)
  {
    if StrictEqualsZero(v) then Null else v
  }

  /** The map callback applied to one record. Only `parseSp` can throw. */
  function NormalizeRecord(r: RawMonth): (p: Result<ChartPoint>)
    ensures p.Ok? <==> r.sp.Num? || r.sp.Str?
    ensures p.Err? ==> p == Err(ReplaceOnNothing(r.sp))
  {
    match ParseSp(r.sp)
    case Err(e) => Err(e)
    case Ok(sp) =>
      Ok(ChartPoint(DayjsMonthLabel(r.monthDate),
                    NullIfZero(r.bopSumSp),
                    NullIfZero(r.shpmSp),
                    if IsZero(sp) then Null else Num(sp)))
  }

  /** `Array.prototype.map` with a callback that can throw, given the
      callback's outcome for each element in order: the mapped array when no
      call throws, otherwise the exception of the first call that does. */
  function MapOrThrow<T>(results: seq<Result<T>>): (r: Result<seq<T>>)
    ensures r.Ok? <==> forall i :: 0 <= i < |results| ==> results[i].Ok?
    ensures r.Ok? ==> |r.value| == |results|
    ensures r.Ok? ==> forall i :: 0 <= i < |results| ==> results[i] == Ok(r.value[i])
    ensures r.Err? ==> exists i :: 0 <= i < |results| && results[i] == Err(r.error)
                                    && forall j :: 0 <= j < i ==> results[j].Ok?
  {
    if |results| == 0 then Ok([])
    else
      match results[0]
      case Err(e) => Err(e)
      case Ok(p) =>
        match MapOrThrow(results[1..])
        case Err(e) =>
          ghost var i :| 0 <= i < |results| - 1 && results[1..][i] == Err(e)
                         && forall j :: 0 <= j < i ==> results[1..][j].Ok?;
          assert results[i + 1] == Err(e);
          assert forall j :: 0 <= j < i + 1 ==> results[j].Ok? by {
            forall j | 0 <= j < i + 1
              ensures results[j].Ok?
            {
              if j > 0 {
                assert results[j] == results[1..][j - 1];
              }
            }
          }
          Err(e)
        case Ok(ps) =>
          assert forall i :: 1 <= i < |results| ==> results[i] == results[1..][i - 1];
          Ok([p] + ps)
  }

  /** `records.map(normalize)`: one point per record, in record order; the
      first record whose `sp` is `null` or `undefined` aborts the whole map
      with its TypeError. */
  function NormalizeAll(rs: seq<RawMonth>): (r: Result<seq<ChartPoint>>)
    ensures r.Ok? <==> forall i :: 0 <= i < |rs| ==> rs[i].sp.Num? || rs[i].sp.Str?
    ensures r.Ok? ==> |r.value| == |rs|
    ensures r.Ok? ==> forall i :: 0 <= i < |rs| ==> NormalizeRecord(rs[i]) == Ok(r.value[i])
    ensures r.Err? ==> exists i :: 0 <= i < |rs| && NormalizeRecord(rs[i]) == Err(r.error)
                                    && forall j :: 0 <= j < i ==> NormalizeRecord(rs[j]).Ok?
  {
    var results := seq(|rs|, i requires 0 <= i < |rs| => NormalizeRecord(rs[i]));
    assert forall i :: 0 <= i < |rs| ==> results[i] == NormalizeRecord(rs[i]);
    MapOrThrow(results)
  }

  // ---------------------------------------------------------------------
  // Properties

  /** The field rules of every normalised point: `BOP` and `SH` are `null`
      exactly where the raw volume is the number 0 and otherwise the raw
      volume itself, unscaled; `SP` is `null` exactly where the parsed
      percentage is 0 and otherwise that number; `month` is the dayjs label
      of the record's date. */
  lemma NormalizedFields(rs: seq<RawMonth>, i: int)
    requires NormalizeAll(rs).Ok? && 0 <= i < |rs|
    ensures var p := NormalizeAll(rs).value[i];
      && p.month == DayjsMonthLabel(rs[i].monthDate)
      && (StrictEqualsZero(rs[i].bopSumSp) ==> p.bop == Null)
      && (!StrictEqualsZero(rs[i].bopSumSp) ==> p.bop == rs[i].bopSumSp)
      && (StrictEqualsZero(rs[i].shpmSp) ==> p.sh == Null)
      && (!StrictEqualsZero(rs[i].shpmSp) ==> p.sh == rs[i].shpmSp)
      && ParseSp(rs[i].sp).Ok?
      && (p.sp == Null <==> IsZero(ParseSp(rs[i].sp).value))
      && (!IsZero(ParseSp(rs[i].sp).value) ==> p.sp == Num(ParseSp(rs[i].sp).value))
  {
    assert NormalizeRecord(rs[i]) == Ok(NormalizeAll(rs).value[i]);
  }

  /** Each output field depends on its own raw field only: two records that
      agree on one field agree on the corresponding output field, whatever
      their other fields hold. */
  lemma FieldsDecidedIndependently(r1: RawMonth, r2: RawMonth)
    requires NormalizeRecord(r1).Ok? && NormalizeRecord(r2).Ok?
    ensures var p1, p2 := NormalizeRecord(r1).value, NormalizeRecord(r2).value;
      && (r1.monthDate == r2.monthDate ==> p1.month == p2.month)
      && (r1.bopSumSp == r2.bopSumSp ==> p1.bop == p2.bop)
      && (r1.shpmSp == r2.shpmSp ==> p1.sh == p2.sh)
      && (r1.sp == r2.sp ==> p1.sp == p2.sp)
  {
  }

  /** A string `sp` that is a number's text followed by '%' is read back as
      that number. */
  lemma ParseSpReadsPercentText(x: JsNumber, text: string)
    requires text == NumberToString(x) + "%"
    ensures ParseSp(Str(text)).Ok?
    ensures SameNumber(ParseSp(Str(text)).value, x)
  {
    NumberTextHasNoPercent(x);
    RemoveFinalPercent(NumberToString(x));
    ParsePrintRoundTrip(x);
  }

  /** A string `sp` parses to NaN exactly when, once its first '%' is
      removed, it does not start (after white space and a sign) with a
      digit, a point followed by a digit, or "Infinity". Such a record keeps
      NaN as its `SP`; it is not turned into `null`. */
  lemma UnparsableSpStaysNaN(r: RawMonth)
    requires r.sp.Str?
    ensures ParseSp(r.sp) == Ok(NaN) <==> !StartsNumber(Unsigned(RemoveFirstPercent(r.sp.s)))
    ensures ParseSp(r.sp) == Ok(NaN) ==> NormalizeRecord(r) == Ok(NormalizeRecord(r).value)
                                          && NormalizeRecord(r).value.sp == Num(NaN)
  {
  }

  // ---------------------------------------------------------------------
  // The repository's data

  /** `{month_date: "2024-06-01", shpm_sp: 2577.015, bop_sum_sp: 2537,
      sp: "101.60%"}` becomes `{month: "Jun 24", BOP: 2537, SH: 2577.015,
      SP: 101.6}`. */
  lemma FirstRecordExample()
    ensures NormalizeRecord(RawMonth("2024-06-01", Num(Finite(Decimal(2577015, 3))),
                                     Num(Finite(Decimal(2537, 0))), Str("101.60%")))
         == Ok(ChartPoint(Some("Jun 24"), Num(Finite(Decimal(2537, 0))),
                          Num(Finite(Decimal(2577015, 3))), Num(Finite(Decimal(10160, 2)))))
    ensures Decimal(10160, 2).Value() == 101.6
  {
    assert Pow10(2) == 100;
    SpExample();
    JuneLabelExample();
    NormalizeWithKnownParts(RawMonth("2024-06-01", Num(Finite(Decimal(2577015, 3))),
                                     Num(Finite(Decimal(2537, 0))), Str("101.60%")),
                            Some("Jun 24"), Finite(Decimal(10160, 2)));
  }

  lemma NormalizeWithKnownParts(r: RawMonth, month: Option<string>, sp: JsNumber)
    requires DayjsMonthLabel(r.monthDate) == month && ParseSp(r.sp) == Ok(sp)
    requires !StrictEqualsZero(r.bopSumSp) && !StrictEqualsZero(r.shpmSp) && !IsZero(sp)
    ensures NormalizeRecord(r) == Ok(ChartPoint(month, r.bopSumSp, r.shpmSp, Num(sp)))
  {
  }

  /** "101.60%" parses to 101.60. */
  lemma SpExample()
    ensures ParseSp(Str("101.60%")) == Ok(Finite(Decimal(10160, 2)))
  {
    assert "101.60%" == "101" + "." + "60" + "%";
    assert "101" + "60" == DigitsOf(10160);
    DigitsRoundTrip(10160);
    ParseSpPointedPercent("101", "60");
  }

  /** `parseSp` of "digits.digits%" reads the digits as a decimal with as
      many places as the fraction has digits. */
  lemma ParseSpPointedPercent(whole: string, frac: string)
    requires AllDigits(whole) && AllDigits(frac) && |whole| > 0
    ensures AllDigits(whole + frac)
    ensures ParseSp(Str(whole + "." + frac + "%")) == Ok(Finite(Decimal(DigitsValue(whole + frac), |frac|)))
  {
    ParsePointedPercent(whole, frac);
  }

  lemma JuneLabelExample()
    ensures DayjsMonthLabel("2024-06-01") == Some("Jun 24")
  {
    IsoFields("2024-06-01", 2024, 6, 1);
    LiteralDateLabel("2024-06-01");
    JuneLabelText();
  }

  lemma JuneLabelText()
    ensures MonthNames[5] + " " + YearSuffix(2024) == "Jun 24"
  {
    assert YearSuffix(2024) == "24";
  }

  lemma JanuaryLabelExample()
    ensures DayjsMonthLabel("2025-01-01") == Some("Jan 25")
  {
    IsoFields("2025-01-01", 2025, 1, 1);
    LiteralDateLabel("2025-01-01");
    JanuaryLabelText();
  }

  lemma JanuaryLabelText()
    ensures MonthNames[0] + " " + YearSuffix(2025) == "Jan 25"
  {
    assert YearSuffix(2025) == "25";
  }

  /** The fields of a well-formed "YYYY-MM-DD" string. */
  lemma IsoFields(s: string, y: nat, m: nat, d: nat)
    requires |s| == 10 && s[4] == '-' && s[7] == '-'
    requires AllDigits(s[..4]) && AllDigits(s[5..7]) && AllDigits(s[8..])
    requires y == DigitOf(s[0]) * 1000 + DigitOf(s[1]) * 100 + DigitOf(s[2]) * 10 + DigitOf(s[3])
    requires m == DigitOf(s[5]) * 10 + DigitOf(s[6]) && d == DigitOf(s[8]) * 10 + DigitOf(s[9])
    ensures ParseIsoDate(s) == Some((y, m, d))
  {
    FourDigitsValue(s[..4]);
    TwoDigitsValue(s[5..7]);
    TwoDigitsValue(s[8..]);
  }

  /** The last two records: May 2025 keeps its `BOP` and nulls `SH` and
      `SP`; June 2025 keeps its `SH` and nulls `BOP` and `SP`. */
  lemma SentinelRecordsExample()
    ensures var p := NormalizeRecord(RawMonth("2025-05-01", Num(Finite(Decimal(0, 0))),
                                              Num(Finite(Decimal(3449, 0))), Num(Finite(Decimal(0, 0)))));
      p.Ok? && p.value.bop == Num(Finite(Decimal(3449, 0))) && p.value.sh == Null && p.value.sp == Null
    ensures var p := NormalizeRecord(RawMonth("2025-06-01", Num(Finite(Decimal(4407841, 3))),
                                              Num(Finite(Decimal(0, 0))), Num(Finite(Decimal(0, 0)))));
      p.Ok? && p.value.bop == Null && p.value.sh == Num(Finite(Decimal(4407841, 3))) && p.value.sp == Null
  {
  }

  /** "0%" is the sentinel too; an empty or non-numeric string is NaN, and a
      `null` `sp` throws. */
  lemma SpEdgeCases()
    ensures ParseSp(Str("0%")).Ok? && IsZero(ParseSp(Str("0%")).value)
    ensures ParseSp(Str("")) == Ok(NaN)
    ensures ParseSp(Str("abc")) == Ok(NaN)
    ensures ParseSp(Null).Err?
  {
    ZeroPercentExample();
    LettersExample();
  }

  lemma ZeroPercentExample()
    ensures ParseSp(Str("0%")).Ok? && IsZero(ParseSp(Str("0%")).value)
  {
    assert "0%" == "0" + "%";
    RemoveFinalPercent("0");
    ParseFloatDigits("0");
  }

  lemma LettersExample()
    ensures ParseSp(Str("abc")) == Ok(NaN)
  {
    LettersUnchanged();
    assert !StartsNumber("abc");
  }

  lemma LettersUnchanged()
    ensures RemoveFirstPercent("abc") == "abc" && Unsigned("abc") == "abc"
  {
    assert !IsStrWhiteSpace('a');
    assert TrimStart("abc") == "abc";
  }
}

=== FILE: numberparsing.dfy ===
/** `parseFloat` and `String.prototype.replace` with a one-character pattern,
    over exact decimals. `parseFloat` skips leading white space, reads an
    optional sign, then the longest prefix that is "Infinity" or a decimal
    literal (digits, an optional fraction, an optional exponent); when there
    is no such prefix the result is NaN. */
module NumberParsing {
  import opened Wrappers
  import opened JsNumbers

  /** The characters JavaScript's StrWhiteSpaceChar admits: white space
      (including every Unicode space separator) and line terminators. */
  predicate IsStrWhiteSpace(c: char) {
    c == '\t' || c == '\n' || c == '\U{000B}' || c == '\U{000C}' || c == '\r'
    || c == ' ' || c == '\U{00A0}' || c == '\U{1680}'
    || ('\U{2000}' <= c <= '\U{200A}')
    || c == '\U{2028}' || c == '\U{2029}' || c == '\U{202F}' || c == '\U{205F}'
    || c == '\U{3000}' || c == '\U{FEFF}'
  }

  function TrimStart(s: string): (r: string)
    ensures |r| <= |s| && r == s[|s| - |r|..]
    ensures forall i :: 0 <= i < |s| - |r| ==> IsStrWhiteSpace(s[i])
    ensures |r| == 0 || !IsStrWhiteSpace(r[0])
  {
    if |s| > 0 && IsStrWhiteSpace(s[0]) then
      var r := TrimStart(s[1..]);
      assert s[1..][|s| - 1 - |r|..] == s[|s| - |r|..];
      r
    else s
  }

  /** The length of the run of decimal digits `s` starts with. */
  function LeadingDigits(s: string): (n: nat)
    ensures n <= |s| && AllDigits(s[..n])
    ensures n == |s| || !IsDigit(s[n])
  {
    if |s| > 0 && IsDigit(s[0]) then
      var n := 1 + LeadingDigits(s[1..]);
      assert s[..n] == [s[0]] + s[1..][..n - 1];
      n
    else 0
  }

  /** The value of an optional exponent part "e"/"E", sign, digits. Without
      at least one digit there is no exponent part and nothing is read. */
  function ExponentOf(s: string): int {
    if |s| > 0 && (s[0] == 'e' || s[0] == 'E') then
      var negative := |s| > 1 && s[1] == '-';
      var start := if |s| > 1 && (s[1] == '-' || s[1] == '+') then 2 else 1;
      var n := LeadingDigits(s[start..]);
      var v: int := DigitsValue(s[start..][..n]);
      if negative then -v else v
    else 0
  }

  /** The decimal `m * 10^exp / 10^scale`. */
  function Scaled(m: nat, scale: nat, exp: int): (d: Decimal)
    ensures d.mantissa >= 0
  {
    if exp >= 0 then Decimal(m * Pow10(exp), scale) else Decimal(m, scale - exp)
  }

  /** A run of digits is empty exactly when the text does not start with a
      digit. */
  lemma LeadingDigitsPositive(s: string)
    ensures LeadingDigits(s) > 0 <==> |s| > 0 && IsDigit(s[0])
  {
    if LeadingDigits(s) > 0 {
      assert s[..LeadingDigits(s)][0] == s[0];
    }
  }

  /** The text starts with a digit, or with a point followed by a digit. */
  predicate StartsDecimal(u: string) {
    (|u| > 0 && IsDigit(u[0])) || (|u| > 1 && u[0] == '.' && IsDigit(u[1]))
  }

  /** The integer digits a literal starts with. */
  function IntegerPart(u: string): (r: string)
    ensures AllDigits(r) && |r| <= |u|
    ensures |r| == |u| || !IsDigit(u[|r|])
  {
    u[..LeadingDigits(u)]
  }

  /** The integer digits are followed by a decimal point. */
  predicate HasPoint(u: string) {
    |IntegerPart(u)| < |u| && u[|IntegerPart(u)|] == '.'
  }

  /** The digits after the decimal point, if there is one. */
  function FractionPart(u: string): (r: string)
    ensures AllDigits(r)
    ensures HasPoint(u) ==> |IntegerPart(u)| + 1 + |r| <= |u|
    ensures !HasPoint(u) ==> r == []
  {
    if HasPoint(u) then IntegerPart(u[|IntegerPart(u)| + 1..]) else []
  }

  /** What follows the integer digits, the point and the fraction digits:
      where an exponent part may start. */
  function AfterFraction(u: string): string {
    var i := |IntegerPart(u)|;
    if HasPoint(u) then u[i + 1 + |FractionPart(u)|..] else u[i..]
  }

  /** The longest unsigned decimal literal `u` starts with, if any: at least
      one digit before or after an optional point, then an optional exponent
      part. */
  function ParseUnsignedDecimal(u: string): (r: Option<Decimal>)
    ensures r.Some? <==> StartsDecimal(u)
  {
    var whole, frac := IntegerPart(u), FractionPart(u);
    LeadingDigitsPositive(u);
    LeadingDigitsPositive(if HasPoint(u) then u[|whole| + 1..] else u);
    if |whole| + |frac| == 0 then None
    else
      Some(Scaled(DigitsValue(whole + frac), |frac|, ExponentOf(AfterFraction(u))))
  }

  /** The parse once the three parts of the literal are known. */
  lemma LiteralParts(u: string, whole: string, frac: string, rest: string)
    requires IntegerPart(u) == whole && FractionPart(u) == frac && AfterFraction(u) == rest
    requires |whole| + |frac| > 0
    ensures AllDigits(whole + frac)
    ensures ParseUnsignedDecimal(u) == Some(Scaled(DigitsValue(whole + frac), |frac|, ExponentOf(rest)))
  {
    DigitsValueAppend(whole, frac);
  }

  /** The text a number literal can start with after its sign. */
  predicate StartsNumber(u: string) {
    StartsDecimal(u) || (|u| >= 8 && u[..8] == "Infinity")
  }

  /** The text left once white space and one sign character are skipped. */
  function Unsigned(s: string): string {
    var t := TrimStart(s);
    if |t| > 0 && (t[0] == '-' || t[0] == '+') then t[1..] else t
  }

  function ParseFloat(s: string): (r: JsNumber)
    ensures r.NaN? <==> !StartsNumber(Unsigned(s))
    ensures r.Finite? ==> IsDigit(Unsigned(s)[0]) || Unsigned(s)[0] == '.'
  {
    var t := TrimStart(s);
    var negative := |t| > 0 && t[0] == '-';
    var u := Unsigned(s);
    if |u| >= 8 && u[..8] == "Infinity" then Infinite(negative)
    else
      match ParseUnsignedDecimal(u)
      case None => NaN
      case Some(d) => Finite(if negative then Negate(d) else d)
  }

  /** `s.replace("%", "")`: removes the first '%' only. */
  function RemoveFirstPercent(s: string): (r: string)
    ensures '%' !in s ==> r == s
    ensures '%' in s ==> |r| == |s| - 1
  {
    if |s| == 0 then s
    else if s[0] == '%' then s[1..]
    else [s[0]] + RemoveFirstPercent(s[1..])
  }

  /** Where the first '%' sits at `i`, exactly that character goes and the
      text on both sides of it is kept. */
  lemma {:induction false} RemovesFirstPercentOnly(s: string, i: nat)
    requires i < |s| && s[i] == '%' && '%' !in s[..i]
    ensures RemoveFirstPercent(s) == s[..i] + s[i + 1..]
  {
    if i > 0 {
      assert s[0] == s[..i][0];
      assert s[1..][..i - 1] == s[1..i];
      assert '%' !in s[1..][..i - 1];
      RemovesFirstPercentOnly(s[1..], i - 1);
      assert s[..i] == [s[0]] + s[1..][..i - 1];
      assert s[i + 1..] == s[1..][i..];
    }
  }
}

/** `parseFloat` reads back exactly the number JavaScript printed. */
module NumberRoundTrip {
  import opened Wrappers
  import opened JsNumbers
  import opened NumberParsing

  lemma {:induction false} LeadingDigitsOfDigits(ds: string, rest: string)
    requires AllDigits(ds)
    requires rest == [] || !IsDigit(rest[0])
    ensures LeadingDigits(ds + rest) == |ds|
  {
    if |ds| > 0 {
      assert (ds + rest)[1..] == ds[1..] + rest;
      LeadingDigitsOfDigits(ds[1..], rest);
    } else {
      assert ds + rest == rest;
    }
  }

  lemma ExponentSuffixParses(v: int)
    ensures |ExponentSuffix(v)| > 0 && ExponentSuffix(v)[0] == 'e'
    ensures ExponentOf(ExponentSuffix(v)) == v
  {
    var a := if v >= 0 then v else -v;
    var s := ExponentSuffix(v);
    assert s[2..] == DigitsOf(a) + [];
    LeadingDigitsOfDigits(DigitsOf(a), []);
    assert s[2..][..|DigitsOf(a)|] == DigitsOf(a);
    DigitsRoundTrip(a);
  }

  /** A literal with a decimal point: integer digits, '.', fraction digits,
      then nothing or an exponent part. */
  lemma ParsePointed(whole: string, frac: string, rest: string, u: string)
    requires AllDigits(whole) && AllDigits(frac) && |whole| > 0
    requires rest == [] || rest[0] == 'e'
    requires u == whole + "." + frac + rest
    ensures AllDigits(whole + frac)
    ensures ParseUnsignedDecimal(u) == Some(Scaled(DigitsValue(whole + frac), |frac|, ExponentOf(rest)))
  {
    PointedParts(whole, frac, rest, u);
    LiteralParts(u, whole, frac, rest);
  }

  /** The three parts of "whole.frac" followed by `rest`. */
  lemma PointedParts(whole: string, frac: string, rest: string, u: string)
    requires AllDigits(whole) && AllDigits(frac)
    requires rest == [] || rest[0] == 'e'
    requires u == whole + "." + frac + rest
    ensures IntegerPart(u) == whole
    ensures FractionPart(u) == frac
    ensures AfterFraction(u) == rest
  {
    var after := "." + frac + rest;
    PointedSplit(whole, frac, rest, u, after);
    PointedWhole(whole, after, u);
    PointedFraction(whole, frac, rest, u);
  }

  lemma PointedSplit(whole: string, frac: string, rest: string, u: string, after: string)
    requires u == whole + "." + frac + rest && after == "." + frac + rest
    ensures u == whole + after && |u| > |whole| && u[|whole|] == '.'
    ensures u[|whole| + 1..] == frac + rest
  {
    assert u[|whole|..] == after;
  }

  lemma PointedWhole(whole: string, after: string, u: string)
    requires AllDigits(whole) && u == whole + after && |u| > |whole| && u[|whole|] == '.'
    ensures IntegerPart(u) == whole && HasPoint(u)
  {
    LeadingDigitsOfDigits(whole, after);
  }

  lemma PointedFraction(whole: string, frac: string, rest: string, u: string)
    requires AllDigits(whole) && AllDigits(frac) && (rest == [] || rest[0] == 'e')
    requires IntegerPart(u) == whole && HasPoint(u)
    requires |u| > |whole| && u[|whole| + 1..] == frac + rest
    ensures FractionPart(u) == frac && AfterFraction(u) == rest
  {
    LeadingDigitsOfDigits(frac, rest);
    assert u[|whole| + 1 + |frac|..] == rest;
  }

  /** A literal without a decimal point: digits, then nothing or an exponent
      part. */
  lemma ParsePlain(whole: string, rest: string, u: string)
    requires AllDigits(whole) && |whole| > 0
    requires rest == [] || rest[0] == 'e'
    requires u == whole + rest
    ensures ParseUnsignedDecimal(u) == Some(Scaled(DigitsValue(whole), 0, ExponentOf(rest)))
  {
    assert IntegerPart(u) == whole by {
      LeadingDigitsOfDigits(whole, rest);
    }
    assert !HasPoint(u) by {
      assert |whole| < |u| ==> u[|whole|] == rest[0];
    }
    assert AfterFraction(u) == rest by {
      assert u[|whole|..] == rest;
    }
    LiteralParts(u, whole, [], rest);
    assert whole + [] == whole;
  }

  lemma CrossPow(s: int, a: nat, b: nat, c: nat, d: nat)
    requires a + b == c + d
    ensures s * Pow10(a) * Pow10(b) == s * Pow10(c) * Pow10(d)
  {
    PowProductsEqual(a, b, c, d);
    ScaleBoth(s, Pow10(a), Pow10(b), Pow10(c), Pow10(d));
  }

  lemma PowProductsEqual(a: nat, b: nat, c: nat, d: nat)
    requires a + b == c + d
    ensures Pow10(a) * Pow10(b) == Pow10(c) * Pow10(d)
  {
    var n := a + b;
    Pow10Split(n, a, b);
    Pow10Split(n, c, d);
    var p := Pow10(n);
    assert p == Pow10(a) * Pow10(b);
    assert p == Pow10(c) * Pow10(d);
  }

  /** `Pow10Add` with the sum named `n`, so that callers need not mention
      `a + b` and the solver meets only the products it must compare. */
  lemma Pow10Split(n: nat, a: nat, b: nat)
    requires a + b == n
    ensures Pow10(n) == Pow10(a) * Pow10(b)
  {
    Pow10Add(a, b);
  }

  lemma ScaleBoth(s: int, pa: int, pb: int, pc: int, pd: int)
    requires pa * pb == pc * pd
    ensures s * pa * pb == s * pc * pd
  {
    assert s * pa * pb == s * (pa * pb);
    assert s * pc * pd == s * (pc * pd);
  }

  /** "whole.frac" on its own. */
  lemma PointedAlone(whole: string, frac: string, u: string)
    requires AllDigits(whole) && AllDigits(frac) && |whole| > 0
    requires u == whole + "." + frac
    ensures AllDigits(whole + frac)
    ensures ParseUnsignedDecimal(u) == Some(Decimal(DigitsValue(whole + frac), |frac|))
  {
    assert u == whole + "." + frac + [];
    ParsePointed(whole, frac, [], u);
    assert Pow10(0) == 1;
  }

  /** Plain digits on their own. */
  lemma PlainAlone(whole: string)
    requires AllDigits(whole) && |whole| > 0
    ensures ParseUnsignedDecimal(whole) == Some(Decimal(DigitsValue(whole), 0))
  {
    ParsePlain(whole, [], whole);
    assert Pow10(0) == 1;
  }

  /** `s / 10^k` is `s * 10^t / 10^e` when `k + t == e`. */
  lemma ShiftedSame(s: nat, k: nat, t: nat, e: nat, m: nat)
    requires k + t == e && m == s * Pow10(t)
    ensures SameValue(Decimal(s, k), Decimal(m, e))
  {
    Pow10Add(t, k);
    assert Pow10(e) == Pow10(t) * Pow10(k);
    assert s * Pow10(t) * Pow10(k) == s * (Pow10(t) * Pow10(k));
  }

  /** `s * 10^x / 10^k` is `s * 10^t / 10^e` when `k - x == e - t`. */
  lemma ScaledSame(s: nat, k: nat, x: int, t: nat, e: nat, m: nat)
    requires k - x == e - t && m == s * Pow10(t)
    ensures SameValue(Scaled(s, k, x), Decimal(m, e))
  {
    if x >= 0 {
      CrossPow(s, x, e, t, k);
    } else {
      ShiftedSame(s, k - x, t, e, m);
    }
  }

  /** A text read as `s * 10^x / 10^k` is read as the same value as
      `m / 10^e` when `m == s * 10^t` and `k - x == e - t`. */
  lemma ReadsScaled(text: string, s: nat, k: nat, x: int, t: nat, e: nat, m: nat)
    requires ParseUnsignedDecimal(text) == Some(Scaled(s, k, x))
    requires k - x == e - t && m == s * Pow10(t)
    ensures ParseUnsignedDecimal(text).Some? && SameValue(ParseUnsignedDecimal(text).value, Decimal(m, e))
  {
    ScaledSame(s, k, x, t, e, m);
  }

  /** A text read as `d` is read as any `x` of the same value as `d`; a
      separate step so that the layout lemmas do not unfold the parser. */
  lemma ReadsAsSameValue(text: string, d: Decimal, x: Decimal)
    requires ParseUnsignedDecimal(text) == Some(d) && SameValue(d, x)
    ensures ParseUnsignedDecimal(text).Some? && SameValue(ParseUnsignedDecimal(text).value, x)
  {
  }

  /** Integer layout: the significant digits followed by zeros. */
  lemma IntegerLayoutParses(s: nat, t: nat, e: nat, m: nat, ds: string, n: int, text: string)
    requires m == s * Pow10(t) && ds == DigitsOf(s) && n == |ds| + t - e && |ds| <= n
    requires text == ds + Zeros(n - |ds|)
    ensures |text| > 0 && IsDigit(text[0])
    ensures ParseUnsignedDecimal(text).Some? && SameValue(ParseUnsignedDecimal(text).value, Decimal(m, e))
  {
    DigitsRoundTrip(s);
    IntegerLayoutReads(ds, n - |ds|, text);
    ScaledSame(s, 0, n - |ds|, t, e, m);
    ReadsAsSameValue(text, Scaled(s, 0, n - |ds|), Decimal(m, e));
  }

  lemma IntegerLayoutReads(ds: string, zeros: nat, text: string)
    requires AllDigits(ds) && |ds| > 0 && text == ds + Zeros(zeros)
    ensures |text| > 0 && IsDigit(text[0])
    ensures ParseUnsignedDecimal(text) == Some(Scaled(DigitsValue(ds), 0, zeros))
  {
    IntegerLayoutShape(ds, zeros, text);
    PlainAlone(text);
  }

  lemma IntegerLayoutShape(ds: string, zeros: nat, text: string)
    requires AllDigits(ds) && |ds| > 0 && text == ds + Zeros(zeros)
    ensures |text| > 0 && IsDigit(text[0]) && AllDigits(text)
    ensures DigitsValue(text) == DigitsValue(ds) * Pow10(zeros)
    ensures Scaled(DigitsValue(ds), 0, zeros) == Decimal(DigitsValue(text), 0)
  {
    assert text[0] == ds[0];
    DigitsValueAppend(ds, Zeros(zeros));
    ZerosValue(zeros);
  }

  /** Fixed-point layout: a decimal point inside the significant digits,
      which `whole` and `frac` split between them. */
  lemma PointLayoutParses(s: nat, t: nat, e: nat, m: nat, ds: string, whole: string, frac: string, text: string)
    requires m == s * Pow10(t) && ds == DigitsOf(s) && ds == whole + frac
    requires 0 < |whole| && |whole| == |ds| + t - e
    requires text == whole + "." + frac
    ensures |text| > 0 && IsDigit(text[0])
    ensures ParseUnsignedDecimal(text).Some? && SameValue(ParseUnsignedDecimal(text).value, Decimal(m, e))
  {
    SignificantHalves(s, ds, whole, frac);
    PointedAlone(whole, frac, text);
    ShiftedSame(s, |frac|, t, e, m);
    ReadsAsSameValue(text, Decimal(s, |frac|), Decimal(m, e));
  }

  /** The two halves of a number's digits are digit strings that read back
      as the number. */
  lemma SignificantHalves(s: nat, ds: string, a: string, b: string)
    requires ds == DigitsOf(s) && ds == a + b
    ensures AllDigits(a) && AllDigits(b) && AllDigits(a + b)
    ensures DigitsValue(a + b) == s
  {
    DigitsRoundTrip(s);
    DigitHalves(a, b);
  }

  /** Both halves of a digit string are digit strings. */
  lemma DigitHalves(a: string, b: string)
    requires AllDigits(a + b)
    ensures AllDigits(a) && AllDigits(b)
  {
    assert forall i :: 0 <= i < |a| ==> a[i] == (a + b)[i];
    assert forall i :: 0 <= i < |b| ==> b[i] == (a + b)[|a| + i];
  }

  /** A digit string is its prefix of length `n` followed by the rest. */
  lemma SplitAt(ds: string, n: int)
    requires 0 <= n <= |ds|
    ensures ds == ds[..n] + ds[n..] && |ds[..n]| == n
  {
  }

  /** Small-number layout: "0." and leading zeros before the digits. */
  lemma SmallLayoutParses(s: nat, t: nat, e: nat, m: nat, ds: string, zeros: nat, text: string)
    requires m == s * Pow10(t) && ds == DigitsOf(s) && zeros + |ds| + t == e
    requires text == "0." + Zeros(zeros) + ds
    ensures |text| > 0 && IsDigit(text[0])
    ensures ParseUnsignedDecimal(text).Some? && SameValue(ParseUnsignedDecimal(text).value, Decimal(m, e))
  {
    SignificantSmallReads(s, ds, zeros, text);
    ReadsShifted(text, s, zeros + |ds|, t, e, m);
  }

  /** The small layout of the digits of `s` reads as `s` over a power of ten
      covering the leading zeros and the digits. */
  lemma SignificantSmallReads(s: nat, ds: string, zeros: nat, text: string)
    requires ds == DigitsOf(s) && text == "0." + Zeros(zeros) + ds
    ensures |text| > 0 && IsDigit(text[0])
    ensures ParseUnsignedDecimal(text) == Some(Decimal(s, zeros + |ds|))
  {
    DigitsRoundTrip(s);
    SmallLayoutReads(ds, zeros, text);
  }

  /** A text read as `s / 10^k` is read as the same value as `m / 10^e` when
      `m == s * 10^t` and `k + t == e`. */
  lemma ReadsShifted(text: string, s: nat, k: nat, t: nat, e: nat, m: nat)
    requires ParseUnsignedDecimal(text) == Some(Decimal(s, k))
    requires k + t == e && m == s * Pow10(t)
    ensures ParseUnsignedDecimal(text).Some? && SameValue(ParseUnsignedDecimal(text).value, Decimal(m, e))
  {
    ShiftedSame(s, k, t, e, m);
  }

  lemma SmallLayoutReads(ds: string, zeros: nat, text: string)
    requires AllDigits(ds) && text == "0." + Zeros(zeros) + ds
    ensures |text| > 0 && IsDigit(text[0])
    ensures ParseUnsignedDecimal(text) == Some(Decimal(DigitsValue(ds), zeros + |ds|))
  {
    SmallLayoutShape(ds, zeros, text);
    PointedAlone("0", Zeros(zeros) + ds, text);
  }

  lemma SmallLayoutShape(ds: string, zeros: nat, text: string)
    requires AllDigits(ds) && text == "0." + Zeros(zeros) + ds
    ensures |text| > 0 && IsDigit(text[0])
    ensures text == "0" + "." + (Zeros(zeros) + ds)
    ensures AllDigits("0") && AllDigits(Zeros(zeros) + ds) && |"0"| > 0
    ensures |Zeros(zeros) + ds| == zeros + |ds|
    ensures DigitsValue("0" + (Zeros(zeros) + ds)) == DigitsValue(ds)
  {
    assert text[0] == '0';
    ZerosValue(zeros);
    ZeroLedValue(Zeros(zeros), ds);
  }

  lemma ZeroLedValue(z: string, ds: string)
    requires AllDigits(z) && DigitsValue(z) == 0 && AllDigits(ds)
    ensures AllDigits("0" + (z + ds)) && DigitsValue("0" + (z + ds)) == DigitsValue(ds)
  {
    LeadingZerosValue(z, ds);
    assert DigitsValue("0") == 0;
    LeadingZerosValue("0", z + ds);
  }

  /** Exponent layout: the first significant digit `head`, the others
      `tail` after a point, then "e±x". */
  lemma ExponentLayoutParses(s: nat, t: nat, e: nat, m: nat, ds: string, v: int,
                             head: string, tail: string, text: string)
    requires m == s * Pow10(t) && ds == DigitsOf(s) && v == |tail| + t - e
    requires ds == head + tail && |head| == 1
    requires text == head + (if |tail| == 0 then "" else "." + tail) + ExponentSuffix(v)
    ensures |text| > 0 && IsDigit(text[0])
    ensures ParseUnsignedDecimal(text).Some? && SameValue(ParseUnsignedDecimal(text).value, Decimal(m, e))
  {
    SignificantExponentReads(s, ds, head, tail, v, text);
    ReadsScaled(text, s, |tail|, v, t, e, m);
  }

  /** The exponent layout of the digits of `s` reads as `s` scaled by the
      printed exponent. */
  lemma SignificantExponentReads(s: nat, ds: string, head: string, tail: string, v: int, text: string)
    requires ds == DigitsOf(s) && ds == head + tail && |head| == 1
    requires text == head + (if |tail| == 0 then "" else "." + tail) + ExponentSuffix(v)
    ensures |text| > 0 && IsDigit(text[0])
    ensures ParseUnsignedDecimal(text) == Some(Scaled(s, |tail|, v))
  {
    SignificantHalves(s, ds, head, tail);
    ExponentTextReads(head, tail, v, text);
  }

  /** Exponent notation reads as the significant digits with the point
      after the first, scaled by the printed exponent. */
  lemma ExponentTextReads(head: string, tail: string, v: int, text: string)
    requires AllDigits(head) && AllDigits(tail) && |head| == 1
    requires text == head + (if |tail| == 0 then "" else "." + tail) + ExponentSuffix(v)
    ensures |text| > 0 && IsDigit(text[0])
    ensures AllDigits(head + tail)
    ensures ParseUnsignedDecimal(text) == Some(Scaled(DigitsValue(head + tail), |tail|, v))
  {
    ExponentSuffixParses(v);
    ExponentLiteral(head, tail, ExponentSuffix(v), text);
  }

  /** The mantissa part of the exponent layout parses to the significant
      digits, with one digit before the point. */
  lemma ExponentLiteral(head: string, tail: string, suffix: string, text: string)
    requires AllDigits(head) && AllDigits(tail) && |head| == 1 && |suffix| > 0 && suffix[0] == 'e'
    requires text == head + (if |tail| == 0 then "" else "." + tail) + suffix
    ensures |text| > 0 && IsDigit(text[0])
    ensures AllDigits(head + tail)
    ensures ParseUnsignedDecimal(text) == Some(Scaled(DigitsValue(head + tail), |tail|, ExponentOf(suffix)))
  {
    ExponentShape(head, tail, suffix, text);
    if |tail| == 0 {
      ParsePlain(head, suffix, text);
    } else {
      ParsePointed(head, tail, suffix, text);
    }
  }

  lemma ExponentShape(head: string, tail: string, suffix: string, text: string)
    requires AllDigits(head) && |head| == 1
    requires text == head + (if |tail| == 0 then "" else "." + tail) + suffix
    ensures |text| > 0 && IsDigit(text[0])
    ensures |tail| == 0 ==> text == head + suffix && head + tail == head
    ensures |tail| > 0 ==> text == head + "." + tail + suffix
  {
    assert text[0] == head[0];
  }

  /** The printed form of a positive decimal starts with a digit and parses
      back to the same value. */
  lemma PositiveRoundTrip(m: nat, e: nat)
    requires m > 0
    ensures var text := PositiveToString(m, e);
      |text| > 0 && IsDigit(text[0])
      && ParseUnsignedDecimal(text).Some?
      && SameValue(ParseUnsignedDecimal(text).value, Decimal(m, e))
  {
    var st := StripTrailingZeros(m);
    var ds := DigitsOf(st.0);
    var n := |ds| + st.1 - e;
    var text := PositiveToString(m, e);
    if |ds| <= n <= 21 {
      IntegerLayoutParses(st.0, st.1, e, m, ds, n, text);
    } else if 0 < n <= 21 {
      SplitAt(ds, n);
      PointLayoutParses(st.0, st.1, e, m, ds, ds[..n], ds[n..], text);
    } else if -6 < n <= 0 {
      SmallLayoutParses(st.0, st.1, e, m, ds, -n, text);
    } else {
      SplitAt(ds, 1);
      ExponentLayoutParses(st.0, st.1, e, m, ds, n - 1, ds[..1], ds[1..], text);
    }
  }

  /** Text that starts with a digit is read by `parseFloat` as an unsigned
      decimal literal. */
  lemma ParseFloatUnsigned(text: string)
    requires |text| > 0 && IsDigit(text[0])
    ensures TrimStart(text) == text && Unsigned(text) == text
    ensures ParseUnsignedDecimal(text).Some? ==> ParseFloat(text) == Finite(ParseUnsignedDecimal(text).value)
  {
    assert !IsStrWhiteSpace(text[0]);
    assert TrimStart(text) == text;
    assert Unsigned(text) == text;
    if |text| >= 8 {
      assert text[..8][0] == text[0];
    }
  }

  /** Text "-" followed by a digit is read as the negated unsigned literal. */
  lemma ParseFloatNegative(body: string)
    requires |body| > 0 && IsDigit(body[0])
    ensures TrimStart("-" + body) == "-" + body && Unsigned("-" + body) == body
    ensures ParseUnsignedDecimal(body).Some? ==>
      ParseFloat("-" + body) == Finite(Negate(ParseUnsignedDecimal(body).value))
  {
    var text := "-" + body;
    assert !IsStrWhiteSpace(text[0]);
    assert TrimStart(text) == text;
    assert text[1..] == body;
    assert Unsigned(text) == body;
    if |body| >= 8 {
      assert body[..8][0] == body[0];
    }
  }

  lemma PositiveNumberRoundTrip(d: Decimal)
    requires d.mantissa > 0
    ensures SameNumber(ParseFloat(NumberToString(Finite(d))), Finite(d))
  {
    var body := PositiveToString(d.mantissa, d.scale);
    assert NumberToString(Finite(d)) == body;
    assert ParseUnsignedDecimal(body).Some? && SameValue(ParseUnsignedDecimal(body).value, d)
      && |body| > 0 && IsDigit(body[0]) by {
      PositiveRoundTrip(d.mantissa, d.scale);
    }
    var d' := ParseUnsignedDecimal(body).value;
    assert ParseFloat(body) == Finite(d') by {
      ParseFloatUnsigned(body);
    }
    assert d'.Value() == d.Value() by {
      SameValueMeansEqual(d', d);
    }
  }

  lemma NegativeNumberRoundTrip(d: Decimal)
    requires d.mantissa < 0
    ensures SameNumber(ParseFloat(NumberToString(Finite(d))), Finite(d))
  {
    var m: nat := -d.mantissa;
    var body := PositiveToString(m, d.scale);
    var text := NumberToString(Finite(d));
    assert text == "-" + body;
    PositiveRoundTrip(m, d.scale);
    NegatedTextReads(d, m, body, text);
  }


  /** A minus sign before the text of the magnitude reads back as the
      negative number. */
  lemma NegatedTextReads(d: Decimal, m: nat, body: string, text: string)
    requires m == -d.mantissa && |body| > 0 && IsDigit(body[0]) && text == "-" + body
    requires ParseUnsignedDecimal(body).Some?
    requires SameValue(ParseUnsignedDecimal(body).value, Decimal(m, d.scale))
    ensures SameNumber(ParseFloat(text), Finite(d))
  {
    var magnitude := Decimal(m, d.scale);
    var d' := ParseUnsignedDecimal(body).value;
    ParseFloatNegative(body);
    SameValueMeansEqual(d', magnitude);
    assert Negate(magnitude) == d;
  }

  lemma InfinityRoundTrip(negative: bool)
    ensures SameNumber(ParseFloat(NumberToString(Infinite(negative))), Infinite(negative))
  {
    InfinityTextReads(negative, NumberToString(Infinite(negative)));
  }

  lemma InfinityTextReads(negative: bool, text: string)
    requires text == (if negative then "-Infinity" else "Infinity")
    ensures ParseFloat(text) == Infinite(negative)
  {
    InfinityUnsigned(negative, text);
  }

  lemma InfinityUnsigned(negative: bool, text: string)
    requires text == (if negative then "-Infinity" else "Infinity")
    ensures TrimStart(text) == text && Unsigned(text) == "Infinity"
    ensures (|text| > 0 && text[0] == '-') == negative
  {
    if negative {
      NegativeInfinityText();
    } else {
      PositiveInfinityText();
    }
  }

  lemma PositiveInfinityText()
    ensures TrimStart("Infinity") == "Infinity" && Unsigned("Infinity") == "Infinity"
  {
    assert !IsStrWhiteSpace("Infinity"[0]);
  }

  lemma NegativeInfinityText()
    ensures TrimStart("-Infinity") == "-Infinity" && Unsigned("-Infinity") == "Infinity"
  {
    assert !IsStrWhiteSpace("-Infinity"[0]);
    assert "-Infinity"[1..] == "Infinity";
  }

  lemma ZeroRoundTrip(d: Decimal)
    requires d.mantissa == 0
    ensures SameNumber(ParseFloat(NumberToString(Finite(d))), Finite(d))
  {
    assert NumberToString(Finite(d)) == "0";
    assert ParseFloat("0") == Finite(Decimal(0, 0)) by {
      ZeroParses();
    }
  }

  lemma ZeroParses()
    ensures ParseFloat("0") == Finite(Decimal(0, 0))
  {
    assert AllDigits("0") && DigitsValue("0") == 0 by {
      assert DigitsOf(0) == "0";
      DigitsRoundTrip(0);
    }
    ParseFloatDigits("0");
  }

  /** Printing any JavaScript number and reading it back with `parseFloat`
      gives the same number. */
  lemma ParsePrintRoundTrip(x: JsNumber)
    ensures SameNumber(ParseFloat(NumberToString(x)), x)
  {
    match x
    case NaN =>
    case Infinite(negative) => InfinityRoundTrip(negative);
    case Finite(d) =>
      if d.mantissa == 0 {
        ZeroRoundTrip(d);
      } else if d.mantissa < 0 {
        NegativeNumberRoundTrip(d);
      } else {
        PositiveNumberRoundTrip(d);
      }
  }

  /** `parseFloat` of plain "digits.digits" text. */
  lemma ParseFloatPointed(whole: string, frac: string)
    requires AllDigits(whole) && AllDigits(frac) && |whole| > 0
    ensures AllDigits(whole + frac)
    ensures ParseFloat(whole + "." + frac) == Finite(Decimal(DigitsValue(whole + frac), |frac|))
  {
    PointedAlone(whole, frac, whole + "." + frac);
    ParseFloatUnsigned(whole + "." + frac);
  }

  /** `parseFloat` of plain digit text. */
  lemma ParseFloatDigits(whole: string)
    requires AllDigits(whole) && |whole| > 0
    ensures ParseFloat(whole) == Finite(Decimal(DigitsValue(whole), 0))
  {
    PlainAlone(whole);
    ParseFloatUnsigned(whole);
  }

  /** Removing the first '%' of text that ends in its only '%'. */
  lemma {:induction false} RemoveFinalPercent(t: string)
    requires '%' !in t
    ensures RemoveFirstPercent(t + "%") == t
  {
    if |t| > 0 {
      assert (t + "%")[1..] == t[1..] + "%";
      RemoveFinalPercent(t[1..]);
      assert [t[0]] + t[1..] == t;
    }
  }

  lemma DigitsHaveNoPercent(cs: string)
    requires AllDigits(cs)
    ensures '%' !in cs
  {
    assert forall i :: 0 <= i < |cs| ==> cs[i] != '%';
  }

  /** The text of a number never contains '%'. */
  lemma NumberTextHasNoPercent(x: JsNumber)
    ensures '%' !in NumberToString(x)
  {
    if x.Finite? && x.d.mantissa != 0 {
      var m := if x.d.mantissa < 0 then -x.d.mantissa else x.d.mantissa;
      PositiveTextHasNoPercent(m, x.d.scale);
    }
  }

  lemma PositiveTextHasNoPercent(m: nat, e: nat)
    requires m > 0
    ensures '%' !in PositiveToString(m, e)
  {
    var st := StripTrailingZeros(m);
    var ds := DigitsOf(st.0);
    var k := |ds|;
    var n := k + st.1 - e;
    DigitsHaveNoPercent(ds);
    DigitsHaveNoPercent(Zeros(if n >= 0 then n else -n));
    if 0 < n < k {
      DigitsHaveNoPercent(ds[..n]);
      DigitsHaveNoPercent(ds[n..]);
    }
    DigitsHaveNoPercent(ds[..1]);
    DigitsHaveNoPercent(ds[1..]);
    DigitsHaveNoPercent(DigitsOf(if n - 1 >= 0 then n - 1 else 1 - n));
  }

  /** Stripping the percent sign off "digits.digits%" and parsing the rest
      reads the digits as a decimal with as many places as the fraction has. */
  lemma ParsePointedPercent(whole: string, frac: string)
    requires AllDigits(whole) && AllDigits(frac) && |whole| > 0
    ensures AllDigits(whole + frac)
    ensures ParseFloat(RemoveFirstPercent(whole + "." + frac + "%")) == Finite(Decimal(DigitsValue(whole + frac), |frac|))
  {
    DigitsHaveNoPercent(whole);
    DigitsHaveNoPercent(frac);
    RemoveFinalPercent(whole + "." + frac);
    ParseFloatPointed(whole, frac);
  }
}

=== FILE: wrappers.dfy ===
/** Option and Result, the two wrappers the chart core needs: `Option` for a
    value the model leaves undetermined, `Result` for an operation that can
    throw a JavaScript exception. */
module Wrappers {

  datatype Option<+T> = None | Some(value: T)

  /** The exceptions the modelled code can raise. */
  datatype Failure =
    /** Reading a property of `null` or `undefined`, or calling a method a
        value does not have, e.g. `.replace` on a number. */
    | TypeError(reason: string)

  datatype Result<+T> = Ok(value: T) | Err(error: Failure)
}
